=== FILE: README.md ===
# Proximity-chat coordinator, modelled in Dafny

This project models the game server of a small multiplayer world. Players
connect over a socket, join at a position and move around. They chat with
everyone within 100 pixels, or they form a chat group by invitation. Once in
a group, members hear each other however far apart they walk. The server
keeps four tables:

- `players`: socket id to record (position, optional name, sprite variant);
- `chatGroups`: group id to its ordered member list;
- `playerGroups`: the reverse map, player id to group id;
- `pendingInvitations`: invitation id to an invitation (sender, target, both display names).

The server handles nine socket events: `setName`, `join`, `move`,
`message`, `inviteToChat`, `acceptInvitation`, `rejectInvitation`,
`leaveGroup` and `disconnect`. Each one updates the tables and emits
messages, either to one socket or to everyone.

The model has two layers:

- **Specification layer.** `Types`, `Proximity`, `Groups` and `Handlers` describe each event as a
  function. It maps the tables before the event to a `Step`: the tables after
  it, plus the ordered list of sends (`Send(Socket(id) | Everyone, event)`).
  Lemmas in `Handlers` state what each event promises. `Invariants` defines
  two table invariants and proves which events preserve them:
  - `WellFormed` holds after every event;
  - `Consistent` (the two maps agree) holds after every event except an accept by a grouped responder, or one whose generated group id collides with a live group.
- **Imperative layer.** `Server.Coordinator` is a class that holds the tables as fields, with one
  method per event. It loops where the server iterates, as in
  `getNearbyPlayers`, the group fan-outs and the invitation clean-up on
  disconnect. Every method is proved to have exactly the effect of its
  specification function. Every event handler keeps `WellFormed`, and
  `Consistent` too, except for the two accept cases listed under Left out.

`Scenarios` walks through concrete runs: proximity chat, an invitation that
becomes a group, and a group that keeps talking after its members walk apart.

Design decisions:

- JavaScript enumerates an object's keys in insertion order. The model keeps
  that order as `order`, so the order of `getNearbyPlayers`, and hence of
  the proximity emits, is the server's.
- A missing `playerGroups` entry is `undefined`, and the server only tests
  it for truthiness. The model writes it as `""` (`Groups.GroupOf`).
- Each event takes the generated values as parameters:
  - the `Math.random` sprite variant (0 to 3);
  - the `Date.now`/`Math.random` group id, which must start with `group_`;
  - the invitation id. An id that collides with a pending one overwrites it, as in the server.

## Model

| member | source | states |
|---|---|---|
| Types.DefaultName | backend/server.ts:193-194 | the fallback label is "Player " followed by at most the first four characters of the id |
| Types.DisplayName | backend/server.ts:235 | the shown name is the player's own name whenever it has a non-empty one, otherwise the fallback label, so it is never empty |
| Types.Names | backend/server.ts:249-250 | no contract of its own: the display name of each member, in order; used by `Handlers.AcceptEffect` |
| Types.Without | backend/server.ts:58 | its contract bounds the length; `Types.WithoutMembers`, `Types.WithoutAbsent` and `Types.WithoutDistinct` state what it keeps |
| Types.Fanout | backend/server.ts:158-160 | its contract gives one send per id; `Types.FanoutAt` and `Types.FanoutReaches` state where each goes |
| Proximity.Within | backend/server.ts:46-47 | no contract of its own: squared distance at most 100 * 100; `Proximity.WithinSymmetric` and `Proximity.NearbyExactly` state its properties |
| Proximity.NearbyAmong | backend/server.ts:44-50 | no contract of its own: the for-of loop body; `Proximity.NearbyAmongMembers` and `Proximity.NearbyAmongDistinct` state its properties |
| Proximity.Nearby | backend/server.ts:38-53 | no contract of its own: getNearbyPlayers; `Proximity.NearbyExactly` states its properties |
| Groups.GroupOf | backend/server.ts:86 | no contract of its own: the `playerGroups` lookup with "" for undefined; used by the handler lemmas |
| Groups.CreateChatGroup | backend/server.ts:56-68 | no contract of its own; `Groups.CreateChatGroupEffect` and `Invariants.CreateChatGroupPreserves` state its properties |
| Groups.AddToGroup | backend/server.ts:71-82 | no contract of its own; `Groups.AddToGroupEffect` and `Invariants.AddToGroupPreserves` state its properties |
| Groups.LeaveGroup | backend/server.ts:85-99 | no contract of its own; `Groups.LeaveGroupEffect` and `Invariants.LeaveGroupPreserves` state its properties |
| Handlers.SetName | backend/server.ts:105-110 | no contract of its own; `Handlers.SetNameEffect` and `Invariants.SetNamePreserves` state its properties |
| Handlers.Join | backend/server.ts:113-121 | no contract of its own; `Handlers.JoinEffect` and `Invariants.JoinPreserves` state its properties |
| Handlers.Move | backend/server.ts:124-140 | no contract of its own; `Handlers.MoveEffect` and `Invariants.MovePreserves` state its properties |
| Handlers.Message | backend/server.ts:143-173 | no contract of its own; `Handlers.MessageFromUnknown`, `Handlers.MessageToGroup` and `Handlers.MessageByProximity` state its properties |
| Handlers.InviteToChat | backend/server.ts:176-215 | no contract of its own; `Handlers.InviteEffect` and `Invariants.InvitePreserves` state its properties |
| Handlers.AcceptInvitation | backend/server.ts:218-257 | no contract of its own; `Handlers.AcceptEffect`, `Handlers.AcceptIsSingleUse`, `Handlers.InvalidResponses` and `Invariants.AcceptPreserves` state its properties |
| Handlers.RejectInvitation | backend/server.ts:260-275 | no contract of its own; `Handlers.RejectEffect` and `Handlers.InvalidResponses` state its properties |
| Handlers.Leave | backend/server.ts:278-282 | no contract of its own; `Handlers.LeaveEffect` and `Invariants.LeavePreserves` state its properties |
| Handlers.Prune | backend/server.ts:296-301 | no contract of its own: the invitations not involving the player; `Handlers.DisconnectEffect` states its properties |
| Handlers.Disconnect | backend/server.ts:285-302 | no contract of its own; `Handlers.DisconnectEffect` and `Invariants.DisconnectPreserves` state its properties |
| Types.WithoutMembers | backend/server.ts:58 | filtering out a player keeps exactly the other entries |
| Types.WithoutAbsent | backend/server.ts:90 | filtering out a player that is not listed changes nothing |
| Types.WithoutAt | backend/server.ts:90 | in a list without duplicates, filtering out the id at position k removes exactly that position and keeps the rest in order |
| Types.WithoutDistinct | backend/server.ts:90 | filtering keeps a list free of duplicates |
| Types.FanoutAt | backend/server.ts:158-160 | the k-th emit of a per-member fan-out goes to the k-th member |
| Types.FanoutReaches | backend/server.ts:158-160 | a fan-out sends the event to exactly the listed sockets |
| Proximity.SqDistance | backend/server.ts:33-35 | the squared distance is never negative |
| Proximity.WithinSymmetric | backend/server.ts:33-35 | being within chat range is symmetric |
| Proximity.NearbyAmongMembers | backend/server.ts:44-50 | the loop keeps exactly the scanned ids other than the player that are within 100 pixels |
| Proximity.NearbyAmongDistinct | backend/server.ts:44-50 | the loop lists no id twice |
| Proximity.NearbyExactly | backend/server.ts:38-53 | no record gives an empty list; otherwise q is listed iff q is another player within 100 pixels, boundary included, and each at most once |
| Server.Coordinator.GetNearbyPlayers | backend/server.ts:38-53 | the loop over the players in key order returns the nearby list and changes nothing |
| Groups.CreateChatGroupEffect | backend/server.ts:56-68 | the creator heads the list and is not repeated; the members are the creator and the requested ones; each is mapped to the new id; other groups and entries are unchanged |
| Server.Coordinator.CreateChatGroup | backend/server.ts:56-68 | the in-place loop returns the given id and leaves the tables as `Groups.CreateChatGroup` does |
| Groups.AddToGroupEffect | backend/server.ts:71-82 | false and no change for a missing group; true and no change for a member; otherwise true, the player is appended and mapped |
| Server.Coordinator.AddToGroup | backend/server.ts:71-82 | the in-place update returns and leaves what `Groups.AddToGroup` does |
| Groups.LeaveGroupEffect | backend/server.ts:85-99 | success iff the player has a live group; then it is unmapped and removed, the group survives iff someone is left, and other groups are untouched; on failure nothing changes |
| Server.Coordinator.LeaveGroup | backend/server.ts:85-99 | the in-place update returns and leaves what `Groups.LeaveGroup` does |
| Server.Coordinator.EmitToEach | backend/server.ts:158-160 | the forEach appends one emit per listed id, in order |
| Server.Coordinator.constructor | backend/server.ts:26-30 | the server starts with four empty tables, which are well formed and consistent |
| Invariants.EmptyIsValid | backend/server.ts:26-30 | the empty tables are well formed and consistent |
| Handlers.SetNameEffect | backend/server.ts:105-110 | without a record nothing happens; otherwise only that player's name changes, to exactly the given string (an empty one included), and the players are broadcast once |
| Server.Coordinator.OnSetName | backend/server.ts:105-110 | the handler has exactly the effect of `Handlers.SetName` and keeps both invariants |
| Invariants.SetNamePreserves | backend/server.ts:105-110 | setName keeps the tables well formed and consistent |
| Handlers.JoinEffect | backend/server.ts:113-121 | join stores exactly the given record, keeps every other one, appends a new id to the key order and keeps a rejoining id in its place, touches no chat table and broadcasts the players once |
| Server.Coordinator.OnJoin | backend/server.ts:113-121 | the handler has exactly the effect of `Handlers.Join` and keeps both invariants |
| Invariants.JoinPreserves | backend/server.ts:113-121 | join with a variant in 0..3 keeps the tables well formed and consistent |
| Handlers.MoveEffect | backend/server.ts:124-140 | without a record nothing happens; otherwise only the mover's position, and its name exactly when a non-empty name is given, change; then one broadcast |
| Server.Coordinator.OnMove | backend/server.ts:124-140 | the handler has exactly the effect of `Handlers.Move` and keeps both invariants |
| Invariants.MovePreserves | backend/server.ts:124-140 | move keeps the tables well formed and consistent |
| Handlers.MessageFromUnknown | backend/server.ts:144-145 | a message from a socket without a record is dropped |
| Handlers.MessageToGroup | backend/server.ts:154-160 | a grouped sender's message goes to exactly its group's members, one emit per entry, and changes nothing |
| Handlers.MessageByProximity | backend/server.ts:161-172 | an ungrouped sender's message reaches the sender and exactly the players within 100 pixels, each once |
| Invariants.GroupMessageIgnoresDistance | backend/server.ts:154-160 | in consistent tables every member of the sender's group gets the message, wherever it stands |
| Server.Coordinator.OnMessage | backend/server.ts:143-173 | the handler changes no table and emits exactly the sends of `Handlers.Message` |
| Handlers.InviteEffect | backend/server.ts:176-215 | nothing without both records; only the "Player is not nearby" error when out of range or self-invited; otherwise exactly one stored invitation with both display names, then an invitation to the target carrying the id, the sender and its name, then a confirmation to the sender carrying the id, the target and its name |
| Server.Coordinator.OnInviteToChat | backend/server.ts:176-215 | the handler has exactly the effect of `Handlers.InviteToChat` and keeps both invariants |
| Invariants.InvitePreserves | backend/server.ts:176-215 | inviting keeps the tables well formed and consistent |
| Handlers.InvalidResponses | backend/server.ts:219-223 | accepting a missing or misaddressed invitation changes nothing and answers "Invalid invitation"; rejecting one changes nothing and is silent |
| Handlers.AcceptEffect | backend/server.ts:225-256 | accepting a live group's invitation leaves exactly addToGroup's tables, the responder appended when new, and tells every member; a group id with no group behind it only consumes the invitation; an ungrouped inviter gets the new group [inviter, responder] with both told; the invitation is consumed and players are untouched |
| Handlers.AcceptJoinsGroup | backend/server.ts:227-239 | with a live inviter group the tables are exactly addToGroup's minus the invitation, and exactly the group's members are told that the responder joined |
| Handlers.AcceptStartsGroup | backend/server.ts:240-253 | with an ungrouped inviter the group [inviter, responder] is stored under the generated id, both are mapped to it and both are told, inviter first |
| Handlers.AcceptIsSingleUse | backend/server.ts:255-256 | an accepted invitation is gone, so a second accept is invalid |
| Server.Coordinator.OnAcceptInvitation | backend/server.ts:218-257 | the handler has exactly the effect of `Handlers.AcceptInvitation`, keeps `WellFormed`, and keeps `Consistent` when the responder is ungrouped and the id is fresh |
| Server.Coordinator.JoinSenderGroup | backend/server.ts:227-239 | the existing-group branch: addToGroup, then a notice to every member when it succeeds |
| Server.Coordinator.StartGroup | backend/server.ts:240-253 | the new-group branch: createChatGroup of inviter and responder, then a notice to both |
| Invariants.AcceptPreserves | backend/server.ts:218-257 | accepting keeps the tables well formed; with an ungrouped responder and a fresh group id, consistent |
| Invariants.ConsumePreserves | backend/server.ts:255-256 | deleting an invitation keeps both invariants |
| Invariants.AcceptWhileGroupedBreaksConsistency | backend/server.ts:225-242 | a grouped responder accepting the invitation of an inviter without a group is re-pointed to the new group while still listed in the old one |
| Invariants.GroupedThenInvitedIsValid | backend/server.ts:26-30 | the starting tables of that run are well formed and consistent |
| Invariants.AcceptWhileGroupedCreates | backend/server.ts:225-242 | in that run the inviter has no group, so accepting creates one |
| Invariants.AcceptWhileGroupedMembers | backend/server.ts:56-68 | the created group lists inviter then responder, and the old group is kept |
| Invariants.AcceptWhileGroupedResult | backend/server.ts:63-65 | the created group re-points the responder |
| Invariants.SoloGroupThenInvitedIsValid | backend/server.ts:26-30 | the starting tables of the colliding-id run are well formed and consistent |
| Invariants.AcceptCollidingCreates | backend/server.ts:56-65 | a generated id equal to a live group's overwrites its member list while its old member stays mapped to it |
| Invariants.AcceptCollidingIdBreaksConsistency | backend/server.ts:240-242 | from consistent tables with an ungrouped inviter and responder, an accept whose generated id collides with a live group leaves the tables inconsistent |
| Handlers.RejectEffect | backend/server.ts:260-275 | rejecting tells the inviter, with the responder's display name, and deletes only that invitation |
| Server.Coordinator.OnRejectInvitation | backend/server.ts:260-275 | the handler has exactly the effect of `Handlers.RejectInvitation` and keeps both invariants |
| Invariants.RejectPreserves | backend/server.ts:260-275 | rejecting keeps the tables well formed and consistent |
| Handlers.LeaveEffect | backend/server.ts:278-282 | the leaver is confirmed exactly when it left a live group |
| Server.Coordinator.OnLeaveGroup | backend/server.ts:278-282 | the handler has exactly the effect of `Handlers.Leave` and keeps both invariants |
| Invariants.LeavePreserves | backend/server.ts:278-282 | leaving keeps the tables well formed and consistent |
| Handlers.DisconnectEffect | backend/server.ts:285-302 | the record and its key are gone (the key order is unchanged when it had none) and every other record is untouched; the chat tables change only as leaveGroup changes them (no group appears or gains a member, other groups keep their lists, the player's group loses exactly the player, no other reverse-map entry changes); exactly the invitations involving the player are dropped; one snapshot is broadcast |
| Handlers.DisconnectKeepsOrder | backend/server.ts:292 | deleting the player's key removes exactly its position from the key order, the other players keep their relative order |
| Server.Coordinator.OnDisconnect | backend/server.ts:285-302 | the handler has exactly the effect of `Handlers.Disconnect` and keeps both invariants |
| Server.Coordinator.PruneInvitations | backend/server.ts:296-301 | the clean-up loop removes exactly the invitations sent by or to the player |
| Invariants.DisconnectPreserves | backend/server.ts:285-302 | disconnecting keeps both invariants, and in consistent tables leaves the player in no group while the other members stay |
| Invariants.CreateChatGroupPreserves | backend/server.ts:56-68 | createChatGroup keeps the tables well formed, and consistent for a fresh id and ungrouped members with records |
| Invariants.CreateChatGroupMapsMembers | backend/server.ts:63-65 | with a fresh id and ungrouped members every member of every group is still mapped to it |
| Invariants.AddToGroupPreserves | backend/server.ts:71-82 | addToGroup keeps the tables well formed, and consistent for an ungrouped player with a record |
| Invariants.LeaveGroupPreserves | backend/server.ts:85-99 | leaveGroup keeps the tables well formed and consistent |
| Invariants.ConsistentIff | backend/server.ts:28-29 | in consistent tables `playerGroups[p] == g` iff p is listed in group g |
| Invariants.OneGroupPerPlayer | backend/server.ts:28-29 | in consistent tables a player is listed in at most one group |
| Scenarios.JoinTwo | backend/server.ts:113-121 | A joining at (0,0) and B at (50,0) gives the two records in join order |
| Scenarios.NearbyOfA | backend/server.ts:38-53 | with B 50 pixels away, B is A's only neighbour |
| Scenarios.FanoutTwo | backend/server.ts:245-252 | a fan-out to two ids emits to the first and then the second |
| Scenarios.ProximityChat | backend/server.ts:161-172 | A's message goes to A and then to B |
| Scenarios.InviteB | backend/server.ts:176-215 | A's invitation to B is stored under its id |
| Scenarios.AcceptFromB | backend/server.ts:218-257 | B's accept creates the group [A, B] and tells A and then B |
| Scenarios.MoveAway | backend/server.ts:124-140 | A walking to (1000,0) leaves B out of range |
| Scenarios.GroupMessageWhenApart | backend/server.ts:154-160 | out of range, A's message still reaches A and B through the group |
| Scenarios.InvitedGroupSurvivesDistance | backend/server.ts:143-257 | the whole run: join, invite, accept, move apart, and the group message still reaches both |

## Left out

- Sockets and bootstrap are outside the model: the HTTP/Express/socket.io setup, the `connection` callback and `server.listen` (backend/server.ts:1-9, 101, 305-307). Emits are appended to an outbox instead.
- The `console.log` lines are left out because they only write diagnostics.
- Coordinates are integers, not JavaScript doubles. `getDistance` is replaced by the squared-distance comparison, which is exact for integers. NaN, infinities and fractional positions are not modelled.
- `Math.random` and `Date.now` are parameters: the sprite variant, the group id and the invitation id. The invitation's `timestamp` field is dropped because nothing reads it.
- The exact group id (`group_<time>_<n>`) and invitation id (`<from>_<to>_<time>`) formats are not built. Group ids are only required to start with `group_`.
- Invariants.AcceptPreserves: consistency is proved only when the responder is ungrouped and the group id is fresh. Otherwise the server itself breaks it: `AcceptWhileGroupedBreaksConsistency` exhibits a grouped responder, and `AcceptCollidingIdBreaksConsistency` a generated id that collides with a live group.
- Server.Coordinator.OnAcceptInvitation: consistency is promised under the same two conditions, for the same reason.
- Handlers.InviteEffect: an id naming an `Object.prototype` member (`constructor`, `toString`, `__proto__`, ...) is treated as absent. For such an `inviteToChat` target the server's `players[targetId]` finds the inherited member, which is truthy, so the server answers "Player is not nearby" where the model sends nothing. Socket ids and generated ids never take those values, and the other lookups on client-sent ids (`pendingInvitations[inviteId]`) reach the same answer either way.
- Key order follows insertion order. This assumes socket ids are never array-index-like strings, which JavaScript would enumerate first.
- Extra fields a client sends in `join`/`move` data (the `...data` spread) are not modelled. A record holds only position, name and variant.
- The `updatePlayers` payload is the players map. Its key order on the wire is not part of the event value.
- `setName` stores any string, the empty one included, because the server does not check it. Only `move` ignores an empty name.
- Leaving a group or disconnecting tells the other members nothing, as in the server.
- The frontend files are not part of this model.
- Handlers run one at a time, so concurrency is not modelled; socket.io delivers events to a single-threaded loop.
- `socket.emit` and `io.to(id).emit` are both modelled as a send to `Socket(id)`. Rooms and multiple connections per id are not modelled.

=== FILE: groups.dfy ===
/**
 The three chat-group helpers of the server: `createChatGroup`, `addToGroup`
 and `leaveGroup`. Each updates `chatGroups` (group id to ordered member
 list) together with the reverse map `playerGroups` (player id to group id).
 */
module Groups {
  import opened Types

  /** `playerGroups[p]`, with "" standing for `undefined`: the server only
      ever tests the looked-up id for truthiness, and "" is falsy too. */
  function GroupOf(t: Tables, p: PlayerId): GroupId
  {
    if p in t.playerGroups then t.playerGroups[p] else ""
  }

  /** `createChatGroup(creator, members)` with the generated id `g`: the
      group lists the creator first, then `members` without the creator,
      and every listed player is mapped to `g`. An existing group with the
      same id is overwritten, as in the source. */
  function CreateChatGroup(t: Tables, creator: PlayerId, members: seq<PlayerId>, g: GroupId): Tables
  {
    var all := [creator] + Without(members, creator);
    t.(chatGroups := t.chatGroups[g := all],
       playerGroups := t.playerGroups + map m | m in all :: g)
  }

  /** `addToGroup(g, p)`: false when the group does not exist; true and no
      change when `p` is already a member; otherwise `p` is appended and mapped. */
  function AddToGroup(t: Tables, g: GroupId, p: PlayerId): (bool, Tables)
  {
    if g !in t.chatGroups then (false, t)
    else if p in t.chatGroups[g] then (true, t)
    else (true, t.(chatGroups := t.chatGroups[g := t.chatGroups[g] + [p]],
                   playerGroups := t.playerGroups[p := g]))
  }

  /** `leaveGroup(p)`: false when `p` has no (live) group; otherwise `p` is
      removed from the member list and from `playerGroups`, and the group is
      deleted when no member is left. */
  function LeaveGroup(t: Tables, p: PlayerId): (bool, Tables)
  {
    var g := GroupOf(t, p);
    if g == "" || g !in t.chatGroups then (false, t)
    else
      var rest := Without(t.chatGroups[g], p);
      var groups := if rest == [] then t.chatGroups - {g} else t.chatGroups[g := rest];
      (true, t.(chatGroups := groups, playerGroups := t.playerGroups - {p}))
  }

  /** What `createChatGroup` promises: the creator heads the list and is not
      repeated, the rest are the other requested members, every member maps
      to the new group, and nothing else changes. */
  lemma CreateChatGroupEffect(t: Tables, creator: PlayerId, members: seq<PlayerId>, g: GroupId)
    ensures var t' := CreateChatGroup(t, creator, members, g);
      && g in t'.chatGroups
      && var all := t'.chatGroups[g];
      && all[0] == creator
      && creator !in all[1..]
      && (forall q :: q in all <==> q == creator || q in members)
      && (forall q :: q in all ==> q in t'.playerGroups && t'.playerGroups[q] == g)
      && t'.chatGroups.Keys == t.chatGroups.Keys + {g}
      && (forall h :: h in t.chatGroups && h != g ==> t'.chatGroups[h] == t.chatGroups[h])
      && (forall q :: q in t'.playerGroups <==> q in t.playerGroups || q in all)
      && (forall q :: q in t.playerGroups && q !in all ==> t'.playerGroups[q] == t.playerGroups[q])
      && t'.players == t.players && t'.order == t.order && t'.pending == t.pending
  {
    var rest := Without(members, creator);
    var all := [creator] + rest;
    assert all[1..] == rest;
    WithoutMembers(members, creator, creator);
    forall q ensures q in all <==> q == creator || q in members {
      WithoutMembers(members, creator, q);
    }
  }

  /** What `addToGroup` promises, case by case. */
  lemma AddToGroupEffect(t: Tables, g: GroupId, p: PlayerId)
    ensures var (ok, t') := AddToGroup(t, g, p);
      && (g !in t.chatGroups ==> !ok && t' == t)
      && (g in t.chatGroups && p in t.chatGroups[g] ==> ok && t' == t)
      && (g in t.chatGroups && p !in t.chatGroups[g] ==>
            && ok
            && t'.chatGroups == t.chatGroups[g := t.chatGroups[g] + [p]]
            && t'.playerGroups == t.playerGroups[p := g]
            && t'.players == t.players && t'.order == t.order && t'.pending == t.pending)
  {
  }

  /** What `leaveGroup` promises: without a group nothing changes; otherwise
      the player is gone from its list and from the reverse map, the group
      survives exactly when someone is left, and other groups are untouched. */
  lemma LeaveGroupEffect(t: Tables, p: PlayerId)
    ensures var (ok, t') := LeaveGroup(t, p);
      && (ok <==> GroupOf(t, p) != "" && GroupOf(t, p) in t.chatGroups)
      && (!ok ==> t' == t)
      && (ok ==>
            var g := t.playerGroups[p];
            && p !in t'.playerGroups
            && t'.playerGroups == t.playerGroups - {p}
            && (g in t'.chatGroups <==> exists q :: q in t.chatGroups[g] && q != p)
            && (g in t'.chatGroups ==>
                  p !in t'.chatGroups[g] && (forall q :: q in t'.chatGroups[g] <==> q in t.chatGroups[g] && q != p))
            && t'.chatGroups.Keys <= t.chatGroups.Keys
            && (forall h :: h in t.chatGroups && h != g ==> h in t'.chatGroups && t'.chatGroups[h] == t.chatGroups[h])
            && t'.players == t.players && t'.order == t.order && t'.pending == t.pending)
  {
    var g := GroupOf(t, p);
    if g != "" && g in t.chatGroups {
      var rest := Without(t.chatGroups[g], p);
      forall q ensures q in rest <==> q in t.chatGroups[g] && q != p {
        WithoutMembers(t.chatGroups[g], p, q);
      }
      if rest != [] {
        assert rest[0] in t.chatGroups[g] && rest[0] != p;
      }
    }
  }
}

=== FILE: handlers.dfy ===
/**
 The socket event handlers of the coordinator, each as a function from the
 tables before the event to the tables after it and the sends it makes, in
 order. `sid` is the id of the socket the event arrived on. Values the
 server draws from `Math.random`/`Date.now` (sprite variant, group id,
 invitation id) are parameters.
 */
module Handlers {
  import opened Wrappers
  import opened Types
  import opened Proximity
  import opened Groups

  /** The result of handling one event. */
  datatype Step = Step(tables: Tables, sends: seq<Send>)

  /** `join`: create or overwrite the record, then broadcast all players. */
  function Join(t: Tables, sid: PlayerId, x: int, y: int, name: Option<string>, variant: int): Step
  {
    var players := t.players[sid := Player(x, y, name, variant)];
    var order := if sid in t.players then t.order else t.order + [sid];
    Step(t.(players := players, order := order), [Send(Everyone, UpdatePlayers(players))])
  }

  /** `move`: ignored without a record; otherwise new coordinates, the name
      replaced when a non-empty, different one comes along, then a broadcast. */
  function Move(t: Tables, sid: PlayerId, x: int, y: int, name: Option<string>): Step
  {
    if sid !in t.players then Step(t, [])
    else
      var moved := t.players[sid].(x := x, y := y);
      var renamed := if name.Some? && name.value != "" && moved.name != name then moved.(name := name) else moved;
      var players := t.players[sid := renamed];
      Step(t.(players := players), [Send(Everyone, UpdatePlayers(players))])
  }

  /** `setName`: ignored without a record; otherwise the name is overwritten
      (an empty string included) and all players are broadcast. */
  function SetName(t: Tables, sid: PlayerId, name: string): Step
  {
    if sid !in t.players then Step(t, [])
    else
      var players := t.players[sid := t.players[sid].(name := Some(name))];
      Step(t.(players := players), [Send(Everyone, UpdatePlayers(players))])
  }

  /** `message`: dropped without a record; sent to every member of the
      sender's group when it has one; otherwise to the sender and then to
      every nearby player. */
  function Message(t: Tables, sid: PlayerId, text: string): Step
  {
    var ev := ChatMessage(sid, text);
    var g := GroupOf(t, sid);
    if sid !in t.players then Step(t, [])
    else if g != "" && g in t.chatGroups then Step(t, Fanout(t.chatGroups[g], ev))
    else Step(t, [Send(Socket(sid), ev)] + Fanout(Nearby(t.players, t.order, sid), ev))
  }

  /** `inviteToChat`: ignored unless both players have records; an error to
      the sender when the target is not nearby; otherwise the invitation is
      stored under `inviteId` (overwriting a colliding one), the target is
      invited and the sender gets a confirmation. */
  function InviteToChat(t: Tables, sid: PlayerId, target: PlayerId, inviteId: InviteId): Step
  {
    if sid !in t.players || target !in t.players then Step(t, [])
    else if target !in Nearby(t.players, t.order, sid) then Step(t, [Send(Socket(sid), ChatError(NotNearby))])
    else
      var inv := Invitation(sid, target, DisplayName(t.players, sid), DisplayName(t.players, target));
      Step(t.(pending := t.pending[inviteId := inv]),
           [Send(Socket(target), ChatInvitation(inviteId, sid, inv.fromName)),
            Send(Socket(sid), InvitationSent(inviteId, target, inv.toName))])
  }

  /** An invitation that `sid` may act on. */
  predicate Addressed(t: Tables, sid: PlayerId, inviteId: InviteId)
  {
    inviteId in t.pending && t.pending[inviteId].to == sid
  }

  /** `acceptInvitation`: an error unless the invitation exists and is
      addressed to `sid`. Otherwise `sid` joins the inviter's group when the
      inviter has one (all members are told), or a new group `newGroup` of
      the inviter and `sid` is created (both are told); either way the
      invitation is deleted. */
  function AcceptInvitation(t: Tables, sid: PlayerId, inviteId: InviteId, newGroup: GroupId): Step
  {
    if !Addressed(t, sid, inviteId) then Step(t, [Send(Socket(sid), ChatError(InvalidInvitation))])
    else
      var inv := t.pending[inviteId];
      var senderGroup := GroupOf(t, inv.from);
      var r: (Tables, seq<Send>) :=
        if senderGroup != "" then
          var (ok, t1) := AddToGroup(t, senderGroup, sid);
          if ok then
            var members := t1.chatGroups[senderGroup];
            (t1, Fanout(members, PlayerJoinedGroup(senderGroup, sid, DisplayName(t1.players, sid), members)))
          else (t1, [])
        else
          var t1 := CreateChatGroup(t, inv.from, [sid], newGroup);
          var members := t1.chatGroups[newGroup];
          (t1, Fanout([inv.from, sid], GroupCreated(newGroup, members, Names(t1.players, members))));
      Step(r.0.(pending := r.0.pending - {inviteId}), r.1)
  }

  /** `rejectInvitation`: silently ignored unless the invitation exists and is
      addressed to `sid`; otherwise the inviter is told and it is deleted. */
  function RejectInvitation(t: Tables, sid: PlayerId, inviteId: InviteId): Step
  {
    if !Addressed(t, sid, inviteId) then Step(t, [])
    else
      var inv := t.pending[inviteId];
      Step(t.(pending := t.pending - {inviteId}),
           [Send(Socket(inv.from), InvitationRejected(inviteId, sid, DisplayName(t.players, sid)))])
  }

  /** The `leaveGroup` event: leave, and confirm only when there was a group. */
  function Leave(t: Tables, sid: PlayerId): Step
  {
    var (ok, t1) := LeaveGroup(t, sid);
    Step(t1, if ok then [Send(Socket(sid), LeftGroup)] else [])
  }

  /** Whether an invitation has `p` as its sender or its target. */
  predicate Involves(inv: Invitation, p: PlayerId)
  {
    inv.from == p || inv.to == p
  }

  /** The invitations that do not involve `p`. */
  function Prune(pending: map<InviteId, Invitation>, p: PlayerId): map<InviteId, Invitation>
  {
    map k | k in pending && !Involves(pending[k], p) :: pending[k]
  }

  /** `disconnect`: leave the group, delete the record, broadcast all
      players, and drop every invitation sent by or to `sid`. */
  function Disconnect(t: Tables, sid: PlayerId): Step
  {
    var (_, t1) := LeaveGroup(t, sid);
    var players := t1.players - {sid};
    Step(t1.(players := players, order := Without(t1.order, sid), pending := Prune(t1.pending, sid)),
         [Send(Everyone, UpdatePlayers(players))])
  }

  // ---------------------------------------------------------------------
  // What each handler promises.

  /** `join` stores exactly the given record, keeps everyone else's, leaves
      the chat tables alone and broadcasts the new snapshot once. A new id
      goes to the end of the key order; a rejoin keeps its place. */
  lemma JoinEffect(t: Tables, sid: PlayerId, x: int, y: int, name: Option<string>, variant: int)
    ensures var s := Join(t, sid, x, y, name, variant);
      && s.tables.players.Keys == t.players.Keys + {sid}
      && s.tables.players[sid] == Player(x, y, name, variant)
      && (forall q :: q in t.players && q != sid ==> s.tables.players[q] == t.players[q])
      && (sid in t.players ==> s.tables.order == t.order)
      && (sid !in t.players ==> s.tables.order == t.order + [sid])
      && s.tables.chatGroups == t.chatGroups && s.tables.playerGroups == t.playerGroups
      && s.tables.pending == t.pending
      && s.sends == [Send(Everyone, UpdatePlayers(s.tables.players))]
  {
  }

  /** `move` changes only the mover's coordinates, and its name exactly
      when a non-empty name is given; the variant is kept. */
  lemma MoveEffect(t: Tables, sid: PlayerId, x: int, y: int, name: Option<string>)
    ensures var s := Move(t, sid, x, y, name);
      && (sid !in t.players ==> s == Step(t, []))
      && (sid in t.players ==>
            && s.tables.players.Keys == t.players.Keys
            && s.tables.players[sid].x == x && s.tables.players[sid].y == y
            && s.tables.players[sid].variant == t.players[sid].variant
            && s.tables.players[sid].name == (if name.Some? && name.value != "" then name else t.players[sid].name)
            && (forall q :: q in t.players && q != sid ==> s.tables.players[q] == t.players[q])
            && s.tables.(players := t.players) == t
            && s.sends == [Send(Everyone, UpdatePlayers(s.tables.players))])
  {
  }

  /** `setName` changes only the named player's name, to exactly the given
      string (an empty one included), and broadcasts the players once;
      without a record nothing happens. */
  lemma SetNameEffect(t: Tables, sid: PlayerId, name: string)
    ensures var s := SetName(t, sid, name);
      && (sid !in t.players ==> s == Step(t, []))
      && (sid in t.players ==>
            && s.tables.players.Keys == t.players.Keys
            && s.tables.players[sid] == t.players[sid].(name := Some(name))
            && (forall q :: q in t.players && q != sid ==> s.tables.players[q] == t.players[q])
            && s.tables.(players := t.players) == t
            && s.sends == [Send(Everyone, UpdatePlayers(s.tables.players))])
  {
  }

  /** A message is delivered to nobody when the sender has no record. */
  lemma MessageFromUnknown(t: Tables, sid: PlayerId, text: string)
    requires sid !in t.players
    ensures Message(t, sid, text) == Step(t, [])
  {
  }

  /** A grouped sender's message reaches exactly its group's members, once
      per list entry, and changes nothing. */
  lemma MessageToGroup(t: Tables, sid: PlayerId, text: string, s: Send)
    requires sid in t.players && GroupOf(t, sid) != "" && GroupOf(t, sid) in t.chatGroups
    ensures var m := Message(t, sid, text);
      && m.tables == t
      && |m.sends| == |t.chatGroups[t.playerGroups[sid]]|
      && (s in m.sends <==> s == Send(s.to, ChatMessage(sid, text)) && s.to.Socket? && s.to.id in t.chatGroups[t.playerGroups[sid]])
  {
    FanoutReaches(t.chatGroups[t.playerGroups[sid]], ChatMessage(sid, text), s);
  }

  /** An ungrouped sender's message reaches the sender and exactly the other
      players within 100 pixels at the time of sending, each once. */
  lemma MessageByProximity(t: Tables, sid: PlayerId, text: string, b: PlayerId)
    requires Distinct(t.order) && forall id :: id in t.order <==> id in t.players
    requires sid in t.players && !(GroupOf(t, sid) != "" && GroupOf(t, sid) in t.chatGroups)
    ensures var m := Message(t, sid, text);
      && m.tables == t
      && (forall s :: s in m.sends ==> s.to.Socket? && s.event == ChatMessage(sid, text))
      && (Send(Socket(b), ChatMessage(sid, text)) in m.sends <==>
            b == sid || (b in t.players && Within(t.players[sid], t.players[b])))
      && (forall i, j :: 0 <= i < j < |m.sends| ==> m.sends[i].to != m.sends[j].to)
  {
    var ev := ChatMessage(sid, text);
    var near := Nearby(t.players, t.order, sid);
    var sends := [Send(Socket(sid), ev)] + Fanout(near, ev);
    NearbyExactly(t.players, t.order, sid, b);
    NearbyExactly(t.players, t.order, sid, sid);
    FanoutReaches(near, ev, Send(Socket(b), ev));
    forall s | s in sends ensures s.to.Socket? && s.event == ev {
      if s != sends[0] {
        assert s in Fanout(near, ev);
        FanoutReaches(near, ev, s);
      }
    }
    forall i, j | 0 <= i < j < |sends| ensures sends[i].to != sends[j].to {
      FanoutAt(near, ev, j - 1);
      if i == 0 {
        assert near[j - 1] in near;
      } else {
        FanoutAt(near, ev, i - 1);
      }
    }
  }

  /** Inviting: nothing without both records; an error alone when the target
      is not nearby; otherwise exactly one invitation stored, with both
      names, and two sends. */
  lemma InviteEffect(t: Tables, sid: PlayerId, target: PlayerId, inviteId: InviteId)
    requires Distinct(t.order) && forall id :: id in t.order <==> id in t.players
    ensures var s := InviteToChat(t, sid, target, inviteId);
      && (sid !in t.players || target !in t.players ==> s == Step(t, []))
      && (sid in t.players && target in t.players && !Within(t.players[sid], t.players[target]) ==>
            s == Step(t, [Send(Socket(sid), ChatError(NotNearby))]))
      && (sid in t.players && target == sid ==> s == Step(t, [Send(Socket(sid), ChatError(NotNearby))]))
      && (sid in t.players && target in t.players && target != sid && Within(t.players[sid], t.players[target]) ==>
            && inviteId in s.tables.pending
            && s.tables == t.(pending := t.pending[inviteId := s.tables.pending[inviteId]])
            && s.tables.pending[inviteId] ==
                 Invitation(sid, target, DisplayName(t.players, sid), DisplayName(t.players, target))
            && s.sends == [Send(Socket(target), ChatInvitation(inviteId, sid, DisplayName(t.players, sid))),
                           Send(Socket(sid), InvitationSent(inviteId, target, DisplayName(t.players, target)))])
  {
    NearbyExactly(t.players, t.order, sid, target);
  }

  /** Accept and reject of an invitation that is missing or addressed to
      someone else change nothing; accept answers with an error, reject
      stays silent. */
  lemma InvalidResponses(t: Tables, sid: PlayerId, inviteId: InviteId, newGroup: GroupId)
    requires inviteId !in t.pending || t.pending[inviteId].to != sid
    ensures AcceptInvitation(t, sid, inviteId, newGroup) == Step(t, [Send(Socket(sid), ChatError(InvalidInvitation))])
    ensures RejectInvitation(t, sid, inviteId) == Step(t, [])
  {
  }

  /** An invitation is single-use: once accepted it is gone, and a second
      accept of the same id fails as invalid and changes nothing. */
  lemma AcceptIsSingleUse(t: Tables, sid: PlayerId, inviteId: InviteId, g1: GroupId, g2: GroupId)
    requires Addressed(t, sid, inviteId)
    ensures var s1 := AcceptInvitation(t, sid, inviteId, g1);
      && inviteId !in s1.tables.pending
      && AcceptInvitation(s1.tables, sid, inviteId, g2) ==
           Step(s1.tables, [Send(Socket(sid), ChatError(InvalidInvitation))])
  {
  }

  /** A successful accept joins the responder to the inviter's group when
      the inviter is in one, or otherwise creates the group [inviter,
      responder]; players and other invitations are untouched. */
  lemma AcceptEffect(t: Tables, sid: PlayerId, inviteId: InviteId, newGroup: GroupId)
    requires Addressed(t, sid, inviteId) && t.pending[inviteId].from != sid
    ensures var inv := t.pending[inviteId];
      var s := AcceptInvitation(t, sid, inviteId, newGroup);
      && s.tables.players == t.players && s.tables.order == t.order
      && s.tables.pending == t.pending - {inviteId}
      && (GroupOf(t, inv.from) != "" && GroupOf(t, inv.from) in t.chatGroups ==>
            var g := t.playerGroups[inv.from];
            && s.tables == AddToGroup(t, g, sid).1.(pending := t.pending - {inviteId})
            && g in s.tables.chatGroups && sid in s.tables.chatGroups[g]
            && (sid !in t.chatGroups[g] ==> s.tables.chatGroups[g] == t.chatGroups[g] + [sid])
            && (sid !in t.chatGroups[g] ==> sid in s.tables.playerGroups && s.tables.playerGroups[sid] == g)
            && (forall h :: h in t.chatGroups && h != g ==> h in s.tables.chatGroups && s.tables.chatGroups[h] == t.chatGroups[h])
            && (forall q :: q in s.sends <==>
                  q == Send(q.to, PlayerJoinedGroup(g, sid, DisplayName(t.players, sid), s.tables.chatGroups[g]))
                  && q.to.Socket? && q.to.id in s.tables.chatGroups[g]))
      && (GroupOf(t, inv.from) != "" && GroupOf(t, inv.from) !in t.chatGroups ==>
            s == Step(t.(pending := t.pending - {inviteId}), []))
      && (GroupOf(t, inv.from) == "" ==>
            && s.tables.chatGroups == t.chatGroups[newGroup := [inv.from, sid]]
            && s.tables.playerGroups == t.playerGroups[inv.from := newGroup][sid := newGroup]
            && s.sends == [Send(Socket(inv.from), GroupCreated(newGroup, [inv.from, sid], Names(t.players, [inv.from, sid]))),
                           Send(Socket(sid), GroupCreated(newGroup, [inv.from, sid], Names(t.players, [inv.from, sid])))])
  {
    var g := GroupOf(t, t.pending[inviteId].from);
    if g != "" && g in t.chatGroups {
      AcceptJoinsGroup(t, sid, inviteId, newGroup);
    } else if g == "" {
      AcceptStartsGroup(t, sid, inviteId, newGroup);
    }
  }

  /** Accepting the invitation of a player in a live group: the responder
      is added to that group (appended when new) and every member, the
      responder included, is told. */
  lemma AcceptJoinsGroup(t: Tables, sid: PlayerId, inviteId: InviteId, newGroup: GroupId)
    requires Addressed(t, sid, inviteId)
    requires GroupOf(t, t.pending[inviteId].from) != "" && GroupOf(t, t.pending[inviteId].from) in t.chatGroups
    ensures var g := t.playerGroups[t.pending[inviteId].from];
      var s := AcceptInvitation(t, sid, inviteId, newGroup);
      && s.tables == AddToGroup(t, g, sid).1.(pending := t.pending - {inviteId})
      && g in s.tables.chatGroups && sid in s.tables.chatGroups[g]
      && (forall q :: q in s.sends <==>
            q == Send(q.to, PlayerJoinedGroup(g, sid, DisplayName(t.players, sid), s.tables.chatGroups[g]))
            && q.to.Socket? && q.to.id in s.tables.chatGroups[g])
  {
    var g := t.playerGroups[t.pending[inviteId].from];
    var (ok, t1) := AddToGroup(t, g, sid);
    var members := t1.chatGroups[g];
    forall q ensures q in Fanout(members, PlayerJoinedGroup(g, sid, DisplayName(t1.players, sid), members)) <==>
                       q == Send(q.to, PlayerJoinedGroup(g, sid, DisplayName(t.players, sid), members))
                       && q.to.Socket? && q.to.id in members {
      FanoutReaches(members, PlayerJoinedGroup(g, sid, DisplayName(t1.players, sid), members), q);
    }
  }

  /** Accepting the invitation of an ungrouped player: the group
      [inviter, responder] is created under the generated id, both are
      mapped to it, and both are told, inviter first. */
  lemma AcceptStartsGroup(t: Tables, sid: PlayerId, inviteId: InviteId, newGroup: GroupId)
    requires Addressed(t, sid, inviteId) && t.pending[inviteId].from != sid
    requires GroupOf(t, t.pending[inviteId].from) == ""
    ensures var from := t.pending[inviteId].from;
      var s := AcceptInvitation(t, sid, inviteId, newGroup);
      && s.tables.chatGroups == t.chatGroups[newGroup := [from, sid]]
      && s.tables.playerGroups == t.playerGroups[from := newGroup][sid := newGroup]
      && s.sends == [Send(Socket(from), GroupCreated(newGroup, [from, sid], Names(t.players, [from, sid]))),
                     Send(Socket(sid), GroupCreated(newGroup, [from, sid], Names(t.players, [from, sid])))]
  {
    var from := t.pending[inviteId].from;
    WithoutAbsent([sid], from);
    var t1 := CreateChatGroup(t, from, [sid], newGroup);
    assert t1.chatGroups[newGroup] == [from, sid];
    assert t1.playerGroups == t.playerGroups[from := newGroup][sid := newGroup];
    assert Fanout([from, sid], GroupCreated(newGroup, [from, sid], Names(t.players, [from, sid])))
        == [Send(Socket(from), GroupCreated(newGroup, [from, sid], Names(t.players, [from, sid]))),
            Send(Socket(sid), GroupCreated(newGroup, [from, sid], Names(t.players, [from, sid])))] by {
      assert [from, sid][..1] == [from];
      assert [from, sid][..1][..0] == [];
    }
  }


  /** Rejecting tells the inviter, deletes the invitation and leaves the
      groups and players untouched. */
  lemma RejectEffect(t: Tables, sid: PlayerId, inviteId: InviteId)
    requires Addressed(t, sid, inviteId)
    ensures var s := RejectInvitation(t, sid, inviteId);
      && s.tables == t.(pending := t.pending - {inviteId})
      && s.sends == [Send(Socket(t.pending[inviteId].from), InvitationRejected(inviteId, sid, DisplayName(t.players, sid)))]
  {
  }

  /** A disconnect removes the player's key from the key order and keeps
      the other players in their relative order. */
  lemma DisconnectKeepsOrder(t: Tables, sid: PlayerId, k: nat)
    requires Distinct(t.order) && k < |t.order| && t.order[k] == sid
    ensures Disconnect(t, sid).tables.order == t.order[..k] + t.order[k + 1..]
  {
    WithoutAt(t.order, k);
  }

  /** The `leaveGroup` event confirms to the leaver exactly when it left a group. */
  lemma LeaveEffect(t: Tables, sid: PlayerId)
    ensures var s := Leave(t, sid);
      && s.tables == LeaveGroup(t, sid).1
      && (s.sends == [Send(Socket(sid), LeftGroup)] <==> GroupOf(t, sid) != "" && GroupOf(t, sid) in t.chatGroups)
      && (s.sends == [] <==> !(GroupOf(t, sid) != "" && GroupOf(t, sid) in t.chatGroups))
  {
  }

  /** After a disconnect the player has no record; every invitation sent by
      or to it is gone and every other one is kept; the rest of the players
      are untouched and one snapshot is broadcast. The chat tables change
      only as `leaveGroup` changes them: no group appears or gains a member,
      other groups keep their lists, the player's own group loses exactly
      the player, and no other `playerGroups` entry changes. */
  lemma DisconnectEffect(t: Tables, sid: PlayerId)
    ensures var s := Disconnect(t, sid);
      && sid !in s.tables.players
      && sid !in s.tables.order
      && (sid !in t.order ==> s.tables.order == t.order)
      && (forall q :: q in t.players && q != sid ==> q in s.tables.players && s.tables.players[q] == t.players[q])
      && (forall k :: k in s.tables.pending ==> !Involves(s.tables.pending[k], sid))
      && (forall k :: k in t.pending && !Involves(t.pending[k], sid) ==>
            k in s.tables.pending && s.tables.pending[k] == t.pending[k])
      && s.tables.chatGroups == LeaveGroup(t, sid).1.chatGroups
      && s.tables.playerGroups == LeaveGroup(t, sid).1.playerGroups
      && (forall q :: q != sid ==> (q in s.tables.playerGroups <==> q in t.playerGroups))
      && (forall q :: q != sid && q in t.playerGroups ==> s.tables.playerGroups[q] == t.playerGroups[q])
      && (GroupOf(t, sid) != "" && GroupOf(t, sid) in t.chatGroups ==> sid !in s.tables.playerGroups)
      && (forall h :: h in s.tables.chatGroups ==>
            h in t.chatGroups && forall q :: q in s.tables.chatGroups[h] ==> q in t.chatGroups[h])
      && (forall h :: h in t.chatGroups && h != GroupOf(t, sid) ==>
            h in s.tables.chatGroups && s.tables.chatGroups[h] == t.chatGroups[h])
      && (GroupOf(t, sid) != "" && GroupOf(t, sid) in s.tables.chatGroups ==>
            forall q :: q in s.tables.chatGroups[GroupOf(t, sid)] <==> q in t.chatGroups[GroupOf(t, sid)] && q != sid)
      && s.sends == [Send(Everyone, UpdatePlayers(s.tables.players))]
  {
    var t1 := LeaveGroup(t, sid).1;
    WithoutMembers(t1.order, sid, sid);
    if sid !in t.order {
      WithoutAbsent(t.order, sid);
    }
    LeaveGroupEffect(t, sid);
  }
}

=== FILE: invariants.dfy ===
/**
 Invariants of the coordinator's tables.

 `WellFormed` holds after every event, whatever the order of events.
 `Consistent`, the two-way agreement between `chatGroups` and
 `playerGroups`, holds after every event except two kinds of accept.
 Accepting an invitation while already in a group re-points the
 responder's `playerGroups` entry to the new group but leaves it in the
 old group's member list (`AcceptWhileGroupedBreaksConsistency`). An
 accept whose generated group id collides with a live group overwrites
 that group, leaving its old members mapped to an id that no longer
 lists them (`AcceptCollidingIdBreaksConsistency`).
 */
module Invariants {
  import opened Wrappers
  import opened Types
  import opened Proximity
  import opened Groups
  import opened Handlers

  /** `order` lists each player once, and exactly the players with a record. */
  ghost predicate OrderMatches(t: Tables)
  {
    Distinct(t.order) && forall id :: id in t.order <==> id in t.players
  }

  /** Every sprite index is one of the four drawn at join time. */
  ghost predicate VariantsInRange(t: Tables)
  {
    forall id :: id in t.players ==> 0 <= t.players[id].variant < 4
  }

  /** No group exists with an empty member list. */
  ghost predicate NoEmptyGroup(t: Tables)
  {
    forall g :: g in t.chatGroups ==> t.chatGroups[g] != []
  }

  /** Every recorded group id is truthy. */
  ghost predicate GroupIdsSet(t: Tables)
  {
    forall p :: p in t.playerGroups ==> t.playerGroups[p] != ""
  }

  /** Every pending invitation is between two different players with records. */
  ghost predicate InvitationsLive(t: Tables)
  {
    forall k :: k in t.pending ==>
      t.pending[k].from in t.players && t.pending[k].to in t.players && t.pending[k].from != t.pending[k].to
  }

  ghost predicate WellFormed(t: Tables)
  {
    OrderMatches(t) && VariantsInRange(t) && NoEmptyGroup(t) && GroupIdsSet(t) && InvitationsLive(t)
  }

  /** A player's recorded group exists and lists it. */
  ghost predicate MappedAreMembers(t: Tables)
  {
    forall p :: p in t.playerGroups ==> t.playerGroups[p] in t.chatGroups && p in t.chatGroups[t.playerGroups[p]]
  }

  /** Every member of a group is recorded as belonging to that group. */
  ghost predicate MembersAreMapped(t: Tables)
  {
    forall g, p :: g in t.chatGroups && p in t.chatGroups[g] ==> p in t.playerGroups && t.playerGroups[p] == g
  }

  /** Only players with a record belong to a group. */
  ghost predicate GroupedArePlayers(t: Tables)
  {
    t.playerGroups.Keys <= t.players.Keys
  }

  /** `playerGroups[p] == g` exactly when `p` is in `chatGroups[g]`, and
      only players with a record are grouped. */
  ghost predicate Consistent(t: Tables)
  {
    MappedAreMembers(t) && MembersAreMapped(t) && GroupedArePlayers(t)
  }

  /** The ids `createChatGroup` generates start with "group_". */
  predicate GroupIdFormat(g: GroupId)
  {
    "group_" <= g
  }

  /** In consistent tables, the two directions of the reverse map agree. */
  lemma ConsistentIff(t: Tables, p: PlayerId, g: GroupId)
    requires Consistent(t)
    ensures (p in t.playerGroups && t.playerGroups[p] == g) <==> (g in t.chatGroups && p in t.chatGroups[g])
  {
  }

  /** In consistent tables a player is a member of at most one group. */
  lemma OneGroupPerPlayer(t: Tables, p: PlayerId, g1: GroupId, g2: GroupId)
    requires Consistent(t)
    requires g1 in t.chatGroups && p in t.chatGroups[g1]
    requires g2 in t.chatGroups && p in t.chatGroups[g2]
    ensures g1 == g2
  {
    assert t.playerGroups[p] == g1 && t.playerGroups[p] == g2;
  }

  /** In consistent tables a message from a group member reaches every
      member of the group, however far apart they are. */
  lemma GroupMessageIgnoresDistance(t: Tables, a: PlayerId, b: PlayerId, g: GroupId, text: string)
    requires WellFormed(t) && Consistent(t) && a in t.players
    requires g in t.chatGroups && a in t.chatGroups[g] && b in t.chatGroups[g]
    ensures Send(Socket(b), ChatMessage(a, text)) in Message(t, a, text).sends
  {
    assert t.playerGroups[a] == g;
    FanoutReaches(t.chatGroups[g], ChatMessage(a, text), Send(Socket(b), ChatMessage(a, text)));
  }

  lemma EmptyIsValid()
    ensures WellFormed(Empty) && Consistent(Empty)
  {
  }

  // ---------------------------------------------------------------------
  // The group helpers.

  /** `createChatGroup` keeps the tables well formed; with a fresh id and
      ungrouped members that all have records it keeps them consistent. */
  lemma CreateChatGroupPreserves(t: Tables, creator: PlayerId, members: seq<PlayerId>, g: GroupId)
    requires WellFormed(t) && g != ""
    ensures WellFormed(CreateChatGroup(t, creator, members, g))
    ensures Consistent(t) && g !in t.chatGroups && creator !in t.playerGroups && creator in t.players
            && (forall m :: m in members ==> m !in t.playerGroups && m in t.players)
            ==> Consistent(CreateChatGroup(t, creator, members, g))
  {
    CreateChatGroupEffect(t, creator, members, g);
    if Consistent(t) && g !in t.chatGroups && creator !in t.playerGroups && creator in t.players
       && (forall m :: m in members ==> m !in t.playerGroups && m in t.players) {
      CreateChatGroupMapsMembers(t, creator, members, g);
    }
  }

  /** The fresh-group half of `CreateChatGroupPreserves`: every member of
      every group is still mapped to that group. */
  lemma CreateChatGroupMapsMembers(t: Tables, creator: PlayerId, members: seq<PlayerId>, g: GroupId)
    requires Consistent(t) && g !in t.chatGroups && creator !in t.playerGroups
    requires forall m :: m in members ==> m !in t.playerGroups
    ensures MembersAreMapped(CreateChatGroup(t, creator, members, g))
  {
    var t' := CreateChatGroup(t, creator, members, g);
    CreateChatGroupEffect(t, creator, members, g);
    var all := t'.chatGroups[g];
    forall h, p | h in t'.chatGroups && p in t'.chatGroups[h]
      ensures p in t'.playerGroups && t'.playerGroups[p] == h
    {
      if h != g {
        assert p in t.chatGroups[h];
        assert p !in all;
      }
    }
  }

  /** `addToGroup` of a player with a record into a group with a truthy id
      keeps the tables well formed; of an ungrouped player it keeps them
      consistent. */
  lemma AddToGroupPreserves(t: Tables, g: GroupId, p: PlayerId)
    requires WellFormed(t) && g != ""
    ensures WellFormed(AddToGroup(t, g, p).1)
    ensures Consistent(t) && p !in t.playerGroups && p in t.players ==> Consistent(AddToGroup(t, g, p).1)
  {
    AddToGroupEffect(t, g, p);
  }

  /** `leaveGroup` keeps the tables well formed and consistent. */
  lemma LeaveGroupPreserves(t: Tables, p: PlayerId)
    requires WellFormed(t)
    ensures WellFormed(LeaveGroup(t, p).1)
    ensures Consistent(t) ==> Consistent(LeaveGroup(t, p).1)
  {
    LeaveGroupEffect(t, p);
    var (ok, t') := LeaveGroup(t, p);
    if ok && Consistent(t) {
      var g := t.playerGroups[p];
      forall q | q in t'.playerGroups
        ensures t'.playerGroups[q] in t'.chatGroups && q in t'.chatGroups[t'.playerGroups[q]]
      {
        if t.playerGroups[q] == g {
          assert q in t.chatGroups[g] && q != p;
        }
      }
      forall h, q | h in t'.chatGroups && q in t'.chatGroups[h]
        ensures q in t'.playerGroups && t'.playerGroups[q] == h
      {
        assert q in t.chatGroups[h];
      }
    }
  }

  // ---------------------------------------------------------------------
  // The handlers.

  lemma JoinPreserves(t: Tables, sid: PlayerId, x: int, y: int, name: Option<string>, variant: int)
    requires WellFormed(t) && 0 <= variant < 4
    ensures WellFormed(Join(t, sid, x, y, name, variant).tables)
    ensures Consistent(t) ==> Consistent(Join(t, sid, x, y, name, variant).tables)
  {
    var t' := Join(t, sid, x, y, name, variant).tables;
    if sid !in t.players {
      assert sid !in t.order;
      forall i, j | 0 <= i < j < |t'.order| ensures t'.order[i] != t'.order[j] {
        if j == |t.order| {
          assert t.order[i] in t.order;
        }
      }
    }
  }

  lemma MovePreserves(t: Tables, sid: PlayerId, x: int, y: int, name: Option<string>)
    requires WellFormed(t)
    ensures WellFormed(Move(t, sid, x, y, name).tables)
    ensures Consistent(t) ==> Consistent(Move(t, sid, x, y, name).tables)
  {
  }

  lemma SetNamePreserves(t: Tables, sid: PlayerId, name: string)
    requires WellFormed(t)
    ensures WellFormed(SetName(t, sid, name).tables)
    ensures Consistent(t) ==> Consistent(SetName(t, sid, name).tables)
  {
  }

  /** A stored invitation is always between two different players with records. */
  lemma InvitePreserves(t: Tables, sid: PlayerId, target: PlayerId, inviteId: InviteId)
    requires WellFormed(t)
    ensures WellFormed(InviteToChat(t, sid, target, inviteId).tables)
    ensures Consistent(t) ==> Consistent(InviteToChat(t, sid, target, inviteId).tables)
  {
    if sid in t.players {
      NearbyExactly(t.players, t.order, sid, target);
    }
  }

  /** Accepting keeps the tables well formed. It keeps them consistent when
      the responder is in no group and the generated group id is new. */
  lemma AcceptPreserves(t: Tables, sid: PlayerId, inviteId: InviteId, newGroup: GroupId)
    requires WellFormed(t) && GroupIdFormat(newGroup)
    ensures WellFormed(AcceptInvitation(t, sid, inviteId, newGroup).tables)
    ensures Consistent(t) && sid !in t.playerGroups && newGroup !in t.chatGroups
            ==> Consistent(AcceptInvitation(t, sid, inviteId, newGroup).tables)
  {
    if Addressed(t, sid, inviteId) {
      var inv := t.pending[inviteId];
      var g := GroupOf(t, inv.from);
      var t1 := if g != "" then AddToGroup(t, g, sid).1 else CreateChatGroup(t, inv.from, [sid], newGroup);
      assert AcceptInvitation(t, sid, inviteId, newGroup).tables == t1.(pending := t1.pending - {inviteId});
      if g != "" {
        AddToGroupPreserves(t, g, sid);
      } else {
        assert newGroup[..6] == "group_";
        CreateChatGroupPreserves(t, inv.from, [sid], newGroup);
      }
      ConsumePreserves(t1, inviteId);
    }
  }

  /** Deleting an invitation keeps the tables well formed and consistent. */
  lemma ConsumePreserves(t: Tables, inviteId: InviteId)
    requires WellFormed(t)
    ensures WellFormed(t.(pending := t.pending - {inviteId}))
    ensures Consistent(t) ==> Consistent(t.(pending := t.pending - {inviteId}))
  {
  }

  lemma RejectPreserves(t: Tables, sid: PlayerId, inviteId: InviteId)
    requires WellFormed(t)
    ensures WellFormed(RejectInvitation(t, sid, inviteId).tables)
    ensures Consistent(t) ==> Consistent(RejectInvitation(t, sid, inviteId).tables)
  {
  }

  lemma LeavePreserves(t: Tables, sid: PlayerId)
    requires WellFormed(t)
    ensures WellFormed(Leave(t, sid).tables)
    ensures Consistent(t) ==> Consistent(Leave(t, sid).tables)
  {
    LeaveGroupPreserves(t, sid);
  }

  /** A disconnect keeps the tables well formed and consistent; in
      consistent tables it also takes the player out of every group. */
  lemma DisconnectPreserves(t: Tables, sid: PlayerId)
    requires WellFormed(t)
    ensures WellFormed(Disconnect(t, sid).tables)
    ensures Consistent(t) ==> Consistent(Disconnect(t, sid).tables)
    ensures Consistent(t) ==>
              var t' := Disconnect(t, sid).tables;
              && sid !in t'.playerGroups
              && (forall g :: g in t'.chatGroups ==> sid !in t'.chatGroups[g])
              && (forall g, q :: g in t.chatGroups && q in t.chatGroups[g] && q != sid ==> g in t'.chatGroups && q in t'.chatGroups[g])
  {
    LeaveGroupPreserves(t, sid);
    LeaveGroupEffect(t, sid);
    var t1 := LeaveGroup(t, sid).1;
    var t' := Disconnect(t, sid).tables;
    WithoutDistinct(t1.order, sid);
    forall id ensures id in t'.order <==> id in t'.players {
      WithoutMembers(t1.order, sid, id);
    }
    if Consistent(t) {
      assert sid !in t1.playerGroups;
      forall g | g in t'.chatGroups ensures sid !in t'.chatGroups[g] {
        assert sid in t1.chatGroups[g] ==> sid in t1.playerGroups;
      }
      forall g, q | g in t.chatGroups && q in t.chatGroups[g] && q != sid
        ensures g in t'.chatGroups && q in t'.chatGroups[g]
      {
        if sid in t.playerGroups && t.playerGroups[sid] == g {
          assert q in t1.chatGroups[g];
        }
      }
    }
  }

  /** A and B form group_1; C has invited B. */
  function GroupedThenInvited(): Tables
  {
    var p := Player(0, 0, None, 0);
    Tables(map["A" := p, "B" := p, "C" := p], ["A", "B", "C"],
           map["group_1" := ["A", "B"]], map["A" := "group_1", "B" := "group_1"],
           map["i" := Invitation("C", "B", "Player C", "Player B")])
  }

  lemma GroupedThenInvitedIsValid()
    ensures WellFormed(GroupedThenInvited()) && Consistent(GroupedThenInvited())
  {
    var t := GroupedThenInvited();
    assert "A" != "B" && "B" != "C" && "A" != "C";
    assert OrderMatches(t) by {
      assert t.players.Keys == {"A", "B", "C"};
    }
    assert VariantsInRange(t) && NoEmptyGroup(t) && GroupIdsSet(t) && InvitationsLive(t);
    assert MappedAreMembers(t) && GroupedArePlayers(t);
    assert MembersAreMapped(t);
  }

  /** B accepts C's invitation; C has no group, so a new one is created
      with the generated id "group_2". */
  lemma AcceptWhileGroupedCreates()
    ensures AcceptInvitation(GroupedThenInvited(), "B", "i", "group_2").tables
            == CreateChatGroup(GroupedThenInvited(), "C", ["B"], "group_2").(pending := map[])
  {
    var t := GroupedThenInvited();
    assert Addressed(t, "B", "i");
    assert GroupOf(t, "C") == "";
    assert t.pending - {"i"} == map[];
  }

  /** The group C creates lists C then B. */
  lemma AcceptWhileGroupedMembers()
    ensures CreateChatGroup(GroupedThenInvited(), "C", ["B"], "group_2").chatGroups
            == map["group_1" := ["A", "B"], "group_2" := ["C", "B"]]
  {
    WithoutAbsent(["B"], "C");
    assert ["C"] + ["B"] == ["C", "B"];
  }

  /** Creating the group re-points B to it. */
  lemma AcceptWhileGroupedResult()
    ensures var pg := CreateChatGroup(GroupedThenInvited(), "C", ["B"], "group_2").playerGroups;
      "B" in pg && pg["B"] == "group_2"
  {
    AcceptWhileGroupedMembers();
    CreateChatGroupEffect(GroupedThenInvited(), "C", ["B"], "group_2");
    assert "B" in ["C", "B"];
  }

  /** Accepting while already in a group breaks the two-way agreement: here
      B is in group_1 with A and accepts C's invitation, and afterwards B is
      still listed in group_1 while `playerGroups` maps B to group_2. */
  lemma AcceptWhileGroupedBreaksConsistency()
    ensures var t := GroupedThenInvited();
      var t' := AcceptInvitation(t, "B", "i", "group_2").tables;
      && WellFormed(t) && Consistent(t)
      && "B" in t'.chatGroups["group_1"] && t'.playerGroups["B"] == "group_2"
      && !Consistent(t')
  {
    GroupedThenInvitedIsValid();
    AcceptWhileGroupedCreates();
    AcceptWhileGroupedMembers();
    AcceptWhileGroupedResult();
    var t' := AcceptInvitation(GroupedThenInvited(), "B", "i", "group_2").tables;
    assert "group_1" != "group_2";
    assert "B" in t'.chatGroups["group_1"] && t'.playerGroups["B"] != "group_1";
  }

  /** A is alone in group_1; C has invited B, and neither B nor C is grouped. */
  function SoloGroupThenInvited(): Tables
  {
    var p := Player(0, 0, None, 0);
    Tables(map["A" := p, "B" := p, "C" := p], ["A", "B", "C"],
           map["group_1" := ["A"]], map["A" := "group_1"],
           map["i" := Invitation("C", "B", "Player C", "Player B")])
  }

  lemma SoloGroupThenInvitedIsValid()
    ensures WellFormed(SoloGroupThenInvited()) && Consistent(SoloGroupThenInvited())
  {
    var t := SoloGroupThenInvited();
    assert "A" != "B" && "B" != "C" && "A" != "C";
    assert OrderMatches(t) by {
      assert t.players.Keys == {"A", "B", "C"};
    }
    assert VariantsInRange(t) && NoEmptyGroup(t) && GroupIdsSet(t) && InvitationsLive(t);
    assert MappedAreMembers(t) && GroupedArePlayers(t);
    assert MembersAreMapped(t);
  }

  /** B accepts with a generated id that collides with the live group_1:
      `createChatGroup` overwrites A's group with [C, B]. */
  lemma AcceptCollidingCreates()
    ensures var t' := AcceptInvitation(SoloGroupThenInvited(), "B", "i", "group_1").tables;
      && t'.chatGroups == map["group_1" := ["C", "B"]]
      && "A" in t'.playerGroups && t'.playerGroups["A"] == "group_1"
  {
    var t := SoloGroupThenInvited();
    assert Addressed(t, "B", "i");
    assert GroupOf(t, "C") == "";
    WithoutAbsent(["B"], "C");
    assert ["C"] + ["B"] == ["C", "B"];
    assert "A" !in ["C", "B"];
  }

  /** Accepting with a generated group id that collides with a live group
      breaks the two-way agreement even when inviter and responder are both
      ungrouped: A stays mapped to group_1 but is no longer listed in it. */
  lemma AcceptCollidingIdBreaksConsistency()
    ensures var t := SoloGroupThenInvited();
      var t' := AcceptInvitation(t, "B", "i", "group_1").tables;
      && WellFormed(t) && Consistent(t)
      && "B" !in t.playerGroups && "C" !in t.playerGroups
      && !Consistent(t')
  {
    SoloGroupThenInvitedIsValid();
    AcceptCollidingCreates();
    var t' := AcceptInvitation(SoloGroupThenInvited(), "B", "i", "group_1").tables;
    assert "A" !in t'.chatGroups["group_1"] by {
      assert t'.chatGroups["group_1"] == ["C", "B"];
    }
    assert !MappedAreMembers(t');
  }
}

=== FILE: proximity.dfy ===
/**
 Proximity: the chat radius, the distance test and the list of players near
 a given one (`getDistance` and `getNearbyPlayers`).
 */
module Proximity {
  import opened Types

  /** Chat proximity, in pixels; the boundary is inclusive. */
  const ChatProximity: int := 100

  /** The squared Euclidean distance. For integer coordinates
      `sqrt(d) <= 100` holds exactly when `d <= 100 * 100`. */
  function SqDistance(a: Player, b: Player): (d: int)
    ensures d >= 0
  {
    var dx, dy := a.x - b.x, a.y - b.y;
    assert dx * dx >= 0 && dy * dy >= 0;
    dx * dx + dy * dy
  }

  /** `getDistance(a, b) <= CHAT_PROXIMITY`. */
  predicate Within(a: Player, b: Player)
  {
    SqDistance(a, b) <= ChatProximity * ChatProximity
  }

  /** Proximity is symmetric: if b is near a then a is near b. */
  lemma WithinSymmetric(a: Player, b: Player)
    ensures Within(a, b) <==> Within(b, a)
  {
    var dx, dy := a.x - b.x, a.y - b.y;
    assert (-dx) * (-dx) == dx * dx && (-dy) * (-dy) == dy * dy;
  }

  /** The ids among `ids` (other than `self`) within range of `me`, in the
      order they appear: the loop body of `getNearbyPlayers`. */
  function NearbyAmong(players: map<PlayerId, Player>, self: PlayerId, me: Player, ids: seq<PlayerId>): seq<PlayerId>
  {
    if ids == [] then []
    else
      var id := ids[|ids| - 1];
      NearbyAmong(players, self, me, ids[..|ids| - 1])
        + (if id != self && id in players && Within(me, players[id]) then [id] else [])
  }

  /** `getNearbyPlayers(self)`: empty when `self` has no record, otherwise
      every other player within range, in the key order of the players table. */
  function Nearby(players: map<PlayerId, Player>, order: seq<PlayerId>, self: PlayerId): seq<PlayerId>
  {
    if self !in players then [] else NearbyAmong(players, self, players[self], order)
  }

  lemma {:induction false} NearbyAmongMembers(players: map<PlayerId, Player>, self: PlayerId, me: Player, ids: seq<PlayerId>, q: PlayerId)
    ensures q in NearbyAmong(players, self, me, ids) <==>
              q in ids && q != self && q in players && Within(me, players[q])
  {
    if ids != [] {
      var init := ids[..|ids| - 1];
      NearbyAmongMembers(players, self, me, init, q);
      assert ids == init + [ids[|ids| - 1]];
    }
  }

  lemma {:induction false} NearbyAmongDistinct(players: map<PlayerId, Player>, self: PlayerId, me: Player, ids: seq<PlayerId>)
    requires Distinct(ids)
    ensures Distinct(NearbyAmong(players, self, me, ids))
  {
    if ids != [] {
      var init, last := ids[..|ids| - 1], ids[|ids| - 1];
      assert Distinct(init);
      NearbyAmongDistinct(players, self, me, init);
      NearbyAmongMembers(players, self, me, init, last);
      assert last !in init;
    }
  }

  /** The nearby list of a player with a record holds exactly the other
      players within 100 pixels, boundary included, each once; a player
      without a record has none. */
  lemma NearbyExactly(players: map<PlayerId, Player>, order: seq<PlayerId>, self: PlayerId, q: PlayerId)
    requires Distinct(order)
    requires forall id :: id in order <==> id in players
    ensures Distinct(Nearby(players, order, self))
    ensures self !in players ==> Nearby(players, order, self) == []
    ensures q in Nearby(players, order, self) <==>
              self in players && q in players && q != self && Within(players[self], players[q])
  {
    if self in players {
      NearbyAmongMembers(players, self, players[self], order, q);
      NearbyAmongDistinct(players, self, players[self], order);
    }
  }
}

=== FILE: scenarios.dfy ===
/**
 Two end-to-end runs of the coordinator, composed from the handler
 functions: proximity chat between two players 50 pixels apart, and a
 group formed by invitation that keeps delivering after its members move
 out of range.
 */
module Scenarios {
  import opened Wrappers
  import opened Types
  import opened Proximity
  import opened Groups
  import opened Handlers

  const PlayerA: Player := Player(0, 0, None, 0)
  const PlayerB: Player := Player(50, 0, None, 1)

  /** The tables after A joins at (0,0) and B at (50,0). */
  function TwoPlayers(): Tables
  {
    Tables(map["A" := PlayerA, "B" := PlayerB], ["A", "B"], map[], map[], map[])
  }

  lemma JoinTwo()
    ensures Join(Join(Empty, "A", 0, 0, None, 0).tables, "B", 50, 0, None, 1).tables == TwoPlayers()
  {
    assert "A" != "B";
  }

  /** In those tables B is A's only neighbour. */
  lemma NearbyOfA()
    ensures Nearby(TwoPlayers().players, TwoPlayers().order, "A") == ["B"]
  {
    var players := TwoPlayers().players;
    assert "A" != "B";
    assert ["A", "B"][..1] == ["A"] && ["A"][..0] == [];
    assert NearbyAmong(players, "A", PlayerA, []) == [];
    assert NearbyAmong(players, "A", PlayerA, ["A"]) == [];
    assert SqDistance(PlayerA, PlayerB) == 2500;
  }

  /** A fan-out to two ids, spelled out. */
  lemma FanoutTwo(a: PlayerId, b: PlayerId, ev: Event)
    ensures Fanout([a, b], ev) == [Send(Socket(a), ev), Send(Socket(b), ev)]
  {
    assert [a, b][..1] == [a] && [a][..0] == [];
  }

  /** A joins at (0,0), B at (50,0); A's "hi" reaches A and then B, and
      nothing else is sent. */
  lemma ProximityChat()
    ensures var t := Join(Join(Empty, "A", 0, 0, None, 0).tables, "B", 50, 0, None, 1).tables;
      Message(t, "A", "hi").sends ==
        [Send(Socket("A"), ChatMessage("A", "hi")), Send(Socket("B"), ChatMessage("A", "hi"))]
  {
    JoinTwo();
    var t := TwoPlayers();
    NearbyOfA();
    assert GroupOf(t, "A") == "";
    assert Fanout(["B"], ChatMessage("A", "hi")) == [Send(Socket("B"), ChatMessage("A", "hi"))] by {
      assert ["B"][..0] == [];
    }
  }

  /** The tables after A's invitation "A_B_1" to B is accepted with the new group id "group_1". */
  function Grouped(): Tables
  {
    TwoPlayers().(chatGroups := map["group_1" := ["A", "B"]],
                  playerGroups := map["A" := "group_1", "B" := "group_1"])
  }

  /** The tables once A's invitation "A_B_1" to B is pending. */
  function Invited(): Tables
  {
    TwoPlayers().(pending := map["A_B_1" := Invitation("A", "B", "Player A", "Player B")])
  }

  lemma InviteB()
    ensures InviteToChat(TwoPlayers(), "A", "B", "A_B_1").tables == Invited()
  {
    var t2 := TwoPlayers();
    NearbyOfA();
    assert DisplayName(t2.players, "A") == "Player A";
    assert DisplayName(t2.players, "B") == "Player B";
  }

  lemma AcceptFromB()
    ensures var s4 := AcceptInvitation(Invited(), "B", "A_B_1", "group_1");
      && s4.tables == Grouped()
      && s4.sends == [Send(Socket("A"), GroupCreated("group_1", ["A", "B"], ["Player A", "Player B"])),
                      Send(Socket("B"), GroupCreated("group_1", ["A", "B"], ["Player A", "Player B"]))]
  {
    var t3 := Invited();
    assert "A" != "B";
    assert GroupOf(t3, "A") == "";
    assert Without(["B"], "A") == ["B"] by {
      assert ["B"][1..] == [];
    }
    var t4 := CreateChatGroup(t3, "A", ["B"], "group_1");
    assert ["A"] + ["B"] == ["A", "B"];
    assert t4.chatGroups == map["group_1" := ["A", "B"]];
    assert t4.playerGroups == map["A" := "group_1", "B" := "group_1"];
    assert t4.pending - {"A_B_1"} == map[];
    assert t4.(pending := t4.pending - {"A_B_1"}) == Grouped();
    assert DisplayName(t4.players, "A") == "Player A";
    assert DisplayName(t4.players, "B") == "Player B";
    assert Names(t4.players, ["A", "B"]) == ["Player A", "Player B"];
    FanoutTwo("A", "B", GroupCreated("group_1", ["A", "B"], ["Player A", "Player B"]));
  }

  /** The grouped tables after A moves to (1000,0). */
  function Apart(): Tables
  {
    Grouped().(players := map["A" := Player(1000, 0, None, 0), "B" := PlayerB])
  }

  lemma MoveAway()
    ensures Move(Grouped(), "A", 1000, 0, None).tables == Apart()
    ensures !Within(Apart().players["A"], Apart().players["B"])
  {
    assert SqDistance(Player(1000, 0, None, 0), PlayerB) == 950 * 950;
  }

  lemma GroupMessageWhenApart()
    ensures Message(Apart(), "A", "later").sends ==
              [Send(Socket("A"), ChatMessage("A", "later")), Send(Socket("B"), ChatMessage("A", "later"))]
  {
    assert GroupOf(Apart(), "A") == "group_1";
    FanoutTwo("A", "B", ChatMessage("A", "later"));
  }

  /** A invites B, B accepts: both are told of group [A, B]. Then A walks
      1000 pixels away and its message still reaches B, through the group. */
  lemma InvitedGroupSurvivesDistance()
    ensures var t2 := Join(Join(Empty, "A", 0, 0, None, 0).tables, "B", 50, 0, None, 1).tables;
      var t3 := InviteToChat(t2, "A", "B", "A_B_1").tables;
      var s4 := AcceptInvitation(t3, "B", "A_B_1", "group_1");
      var t5 := Move(s4.tables, "A", 1000, 0, None).tables;
      && s4.sends == [Send(Socket("A"), GroupCreated("group_1", ["A", "B"], ["Player A", "Player B"])),
                      Send(Socket("B"), GroupCreated("group_1", ["A", "B"], ["Player A", "Player B"]))]
      && !Within(t5.players["A"], t5.players["B"])
      && Message(t5, "A", "later").sends ==
           [Send(Socket("A"), ChatMessage("A", "later")), Send(Socket("B"), ChatMessage("A", "later"))]
  {
    JoinTwo();
    InviteB();
    AcceptFromB();
    MoveAway();
    GroupMessageWhenApart();
  }
}

=== FILE: server.dfy ===
/**
 The coordinator as the server runs it: one object holding the four tables
 as fields, updated in place by one method per socket event. Outbound
 emits are appended to `outbox`. Every method is proved to have exactly
 the effect of the matching function in `Handlers` (or `Groups`,
 `Proximity`). Every event handler keeps `WellFormed`, and `Consistent`
 too, except that `OnAcceptInvitation` keeps it only for an ungrouped
 responder and a fresh group id.
 */
module Server {
  import opened Wrappers
  import opened Types
  import opened Proximity
  import Groups
  import opened Handlers
  import opened Invariants

  class Coordinator {
    var players: map<PlayerId, Player>
    /** Key order of `players`, as JavaScript enumerates an object. */
    var order: seq<PlayerId>
    var chatGroups: map<GroupId, seq<PlayerId>>
    var playerGroups: map<PlayerId, GroupId>
    var pendingInvitations: map<InviteId, Invitation>
    /** Everything emitted so far, oldest first. */
    var outbox: seq<Send>

    function State(): Tables
      reads this
    {
      Tables(players, order, chatGroups, playerGroups, pendingInvitations)
    }

    ghost predicate Valid()
      reads this
    {
      WellFormed(State())
    }

    constructor ()
      ensures Valid() && Consistent(State())
      ensures State() == Empty && outbox == []
    {
      players, order, chatGroups, playerGroups, pendingInvitations := map[], [], map[], map[], map[];
      outbox := [];
      EmptyIsValid();
    }

    /** `getNearbyPlayers`: walks the players in key order. */
    method GetNearbyPlayers(playerId: PlayerId) returns (nearby: seq<PlayerId>)
      requires Valid()
      ensures nearby == Nearby(players, order, playerId)
    {
      if playerId !in players {
        return [];
      }
      var player := players[playerId];
      nearby := [];
      for i := 0 to |order|
        invariant nearby == NearbyAmong(players, playerId, player, order[..i])
      {
        var id := order[i];
        assert order[..i + 1][..i] == order[..i];
        if id == playerId {
          continue;
        }
        if Within(player, players[id]) {
          nearby := nearby + [id];
        }
      }
      assert order[..|order|] == order;
    }

    /** `createChatGroup`, with the generated id passed in. */
    method CreateChatGroup(creatorId: PlayerId, members: seq<PlayerId>, groupId: GroupId) returns (id: GroupId)
      modifies this`chatGroups, this`playerGroups
      ensures id == groupId
      ensures State() == Groups.CreateChatGroup(old(State()), creatorId, members, groupId)
    {
      var allMembers := [creatorId] + Without(members, creatorId);
      chatGroups := chatGroups[groupId := allMembers];
      for i := 0 to |allMembers|
        invariant forall p :: p in playerGroups <==> p in old(playerGroups) || p in allMembers[..i]
        invariant forall p :: p in playerGroups ==>
                    playerGroups[p] == if p in allMembers[..i] then groupId else old(playerGroups)[p]
        modifies this`playerGroups
      {
        assert allMembers[..i + 1] == allMembers[..i] + [allMembers[i]];
        playerGroups := playerGroups[allMembers[i] := groupId];
      }
      assert allMembers[..|allMembers|] == allMembers;
      ghost var mapped := old(playerGroups) + map m | m in allMembers :: groupId;
      assert forall p :: p in playerGroups <==> p in mapped;
      assert forall p :: p in playerGroups ==> playerGroups[p] == mapped[p];
      assert playerGroups == mapped;
      return groupId;
    }

    /** `addToGroup`. */
    method AddToGroup(groupId: GroupId, playerId: PlayerId) returns (ok: bool)
      modifies this`chatGroups, this`playerGroups
      ensures (ok, State()) == Groups.AddToGroup(old(State()), groupId, playerId)
    {
      if groupId !in chatGroups {
        return false;
      }
      if playerId in chatGroups[groupId] {
        return true;
      }
      chatGroups := chatGroups[groupId := chatGroups[groupId] + [playerId]];
      playerGroups := playerGroups[playerId := groupId];
      return true;
    }

    /** `leaveGroup`. */
    method LeaveGroup(playerId: PlayerId) returns (ok: bool)
      modifies this`chatGroups, this`playerGroups
      ensures (ok, State()) == Groups.LeaveGroup(old(State()), playerId)
    {
      var groupId := if playerId in playerGroups then playerGroups[playerId] else "";
      if groupId == "" || groupId !in chatGroups {
        return false;
      }
      chatGroups := chatGroups[groupId := Without(chatGroups[groupId], playerId)];
      playerGroups := playerGroups - {playerId};
      if chatGroups[groupId] == [] {
        chatGroups := chatGroups - {groupId};
        assert chatGroups == old(chatGroups) - {groupId};
      }
      return true;
    }

    /** `ids.forEach(id => io.to(id).emit(ev))`. */
    method EmitToEach(ids: seq<PlayerId>, ev: Event)
      modifies this`outbox
      ensures outbox == old(outbox) + Fanout(ids, ev)
    {
      for i := 0 to |ids|
        invariant outbox == old(outbox) + Fanout(ids[..i], ev)
      {
        assert ids[..i + 1][..i] == ids[..i];
        outbox := outbox + [Send(Socket(ids[i]), ev)];
      }
      assert ids[..|ids|] == ids;
    }

    method OnSetName(sid: PlayerId, name: string)
      requires Valid()
      modifies this
      ensures Valid() && (old(Consistent(State())) ==> Consistent(State()))
      ensures State() == SetName(old(State()), sid, name).tables
      ensures outbox == old(outbox) + SetName(old(State()), sid, name).sends
    {
      SetNamePreserves(State(), sid, name);
      if sid in players {
        players := players[sid := players[sid].(name := Some(name))];
        outbox := outbox + [Send(Everyone, UpdatePlayers(players))];
      }
    }

    /** `join`; `variant` is the drawn `Math.floor(Math.random() * 4)`. */
    method OnJoin(sid: PlayerId, x: int, y: int, name: Option<string>, variant: int)
      requires Valid() && 0 <= variant < 4
      modifies this
      ensures Valid() && (old(Consistent(State())) ==> Consistent(State()))
      ensures State() == Join(old(State()), sid, x, y, name, variant).tables
      ensures outbox == old(outbox) + Join(old(State()), sid, x, y, name, variant).sends
    {
      JoinPreserves(State(), sid, x, y, name, variant);
      if sid !in players {
        order := order + [sid];
      }
      players := players[sid := Player(x, y, name, variant)];
      outbox := outbox + [Send(Everyone, UpdatePlayers(players))];
    }

    method OnMove(sid: PlayerId, x: int, y: int, name: Option<string>)
      requires Valid()
      modifies this
      ensures Valid() && (old(Consistent(State())) ==> Consistent(State()))
      ensures State() == Move(old(State()), sid, x, y, name).tables
      ensures outbox == old(outbox) + Move(old(State()), sid, x, y, name).sends
    {
      MovePreserves(State(), sid, x, y, name);
      if sid in players {
        var record := players[sid].(x := x, y := y);
        if name.Some? && name.value != "" && record.name != name {
          record := record.(name := name);
        }
        players := players[sid := record];
        outbox := outbox + [Send(Everyone, UpdatePlayers(players))];
      }
    }

    method OnMessage(sid: PlayerId, text: string)
      requires Valid()
      modifies this
      ensures State() == old(State())
      ensures outbox == old(outbox) + Message(old(State()), sid, text).sends
    {
      if sid !in players {
        return;
      }
      var ev := ChatMessage(sid, text);
      var groupId := if sid in playerGroups then playerGroups[sid] else "";
      if groupId != "" && groupId in chatGroups {
        EmitToEach(chatGroups[groupId], ev);
      } else {
        var nearby := GetNearbyPlayers(sid);
        outbox := outbox + [Send(Socket(sid), ev)];
        EmitToEach(nearby, ev);
      }
    }

    /** `inviteToChat`; `inviteId` is the generated `${sid}_${target}_${Date.now()}`. */
    method OnInviteToChat(sid: PlayerId, target: PlayerId, inviteId: InviteId)
      requires Valid()
      modifies this
      ensures Valid() && (old(Consistent(State())) ==> Consistent(State()))
      ensures State() == InviteToChat(old(State()), sid, target, inviteId).tables
      ensures outbox == old(outbox) + InviteToChat(old(State()), sid, target, inviteId).sends
    {
      InvitePreserves(State(), sid, target, inviteId);
      if sid !in players || target !in players {
        return;
      }
      var nearby := GetNearbyPlayers(sid);
      if target !in nearby {
        outbox := outbox + [Send(Socket(sid), ChatError(NotNearby))];
        return;
      }
      var invitation := Invitation(sid, target, DisplayName(players, sid), DisplayName(players, target));
      pendingInvitations := pendingInvitations[inviteId := invitation];
      outbox := outbox + [Send(Socket(target), ChatInvitation(inviteId, sid, invitation.fromName))];
      outbox := outbox + [Send(Socket(sid), InvitationSent(inviteId, target, invitation.toName))];
    }

    /** `acceptInvitation`; `newGroupId` is the id `createChatGroup` would
        generate, used only when the inviter has no group. */
    method OnAcceptInvitation(sid: PlayerId, inviteId: InviteId, newGroupId: GroupId)
      requires Valid() && GroupIdFormat(newGroupId)
      modifies this
      ensures Valid()
      ensures old(Consistent(State())) && old(sid !in playerGroups) && old(newGroupId !in chatGroups)
              ==> Consistent(State())
      ensures State() == AcceptInvitation(old(State()), sid, inviteId, newGroupId).tables
      ensures outbox == old(outbox) + AcceptInvitation(old(State()), sid, inviteId, newGroupId).sends
    {
      AcceptPreserves(State(), sid, inviteId, newGroupId);
      if inviteId !in pendingInvitations || pendingInvitations[inviteId].to != sid {
        outbox := outbox + [Send(Socket(sid), ChatError(InvalidInvitation))];
        return;
      }
      var invitation := pendingInvitations[inviteId];
      var senderGroup := if invitation.from in playerGroups then playerGroups[invitation.from] else "";
      if senderGroup != "" {
        JoinSenderGroup(senderGroup, sid);
      } else {
        StartGroup(invitation.from, sid, newGroupId);
      }
      pendingInvitations := pendingInvitations - {inviteId};
    }

    /** The accept branch for an inviter already in `senderGroup`: add the
        responder and tell every member. */
    method JoinSenderGroup(senderGroup: GroupId, sid: PlayerId)
      modifies this`chatGroups, this`playerGroups, this`outbox
      ensures var (ok, t1) := Groups.AddToGroup(old(State()), senderGroup, sid);
        && State() == t1
        && outbox == old(outbox) +
             if ok then Fanout(t1.chatGroups[senderGroup],
                               PlayerJoinedGroup(senderGroup, sid, DisplayName(t1.players, sid), t1.chatGroups[senderGroup]))
             else []
    {
      var added := AddToGroup(senderGroup, sid);
      if added {
        var members := chatGroups[senderGroup];
        EmitToEach(members, PlayerJoinedGroup(senderGroup, sid, DisplayName(players, sid), members));
      }
    }

    /** The accept branch for an inviter in no group: create the group
        [inviter, responder] and tell both. */
    method StartGroup(from: PlayerId, sid: PlayerId, newGroupId: GroupId)
      modifies this`chatGroups, this`playerGroups, this`outbox
      ensures var t1 := Groups.CreateChatGroup(old(State()), from, [sid], newGroupId);
        && State() == t1
        && outbox == old(outbox) +
             Fanout([from, sid], GroupCreated(newGroupId, t1.chatGroups[newGroupId], Names(t1.players, t1.chatGroups[newGroupId])))
    {
      var groupId := CreateChatGroup(from, [sid], newGroupId);
      var members := chatGroups[groupId];
      EmitToEach([from, sid], GroupCreated(groupId, members, Names(players, members)));
    }

    method OnRejectInvitation(sid: PlayerId, inviteId: InviteId)
      requires Valid()
      modifies this
      ensures Valid() && (old(Consistent(State())) ==> Consistent(State()))
      ensures State() == RejectInvitation(old(State()), sid, inviteId).tables
      ensures outbox == old(outbox) + RejectInvitation(old(State()), sid, inviteId).sends
    {
      RejectPreserves(State(), sid, inviteId);
      if inviteId !in pendingInvitations || pendingInvitations[inviteId].to != sid {
        return;
      }
      var invitation := pendingInvitations[inviteId];
      outbox := outbox + [Send(Socket(invitation.from), InvitationRejected(inviteId, sid, DisplayName(players, sid)))];
      pendingInvitations := pendingInvitations - {inviteId};
    }

    /** The `leaveGroup` event. */
    method OnLeaveGroup(sid: PlayerId)
      requires Valid()
      modifies this
      ensures Valid() && (old(Consistent(State())) ==> Consistent(State()))
      ensures State() == Leave(old(State()), sid).tables
      ensures outbox == old(outbox) + Leave(old(State()), sid).sends
    {
      LeavePreserves(State(), sid);
      var left := LeaveGroup(sid);
      if left {
        outbox := outbox + [Send(Socket(sid), LeftGroup)];
      }
    }

    method OnDisconnect(sid: PlayerId)
      requires Valid()
      modifies this
      ensures Valid() && (old(Consistent(State())) ==> Consistent(State()))
      ensures State() == Disconnect(old(State()), sid).tables
      ensures outbox == old(outbox) + Disconnect(old(State()), sid).sends
    {
      DisconnectPreserves(State(), sid);
      var _ := LeaveGroup(sid);
      ghost var t1 := State();
      players := players - {sid};
      order := Without(order, sid);
      outbox := outbox + [Send(Everyone, UpdatePlayers(players))];
      PruneInvitations(sid);
      assert State() == t1.(players := t1.players - {sid}, order := Without(t1.order, sid), pending := Prune(t1.pending, sid));
    }

    /** The cleanup loop of `disconnect`: delete, one key at a time, every
        invitation sent by or to `sid`. */
    method PruneInvitations(sid: PlayerId)
      modifies this`pendingInvitations
      ensures pendingInvitations == Prune(old(pendingInvitations), sid)
    {
      var keys := pendingInvitations.Keys;
      while keys != {}
        invariant keys <= old(pendingInvitations).Keys
        invariant forall k :: k in pendingInvitations <==>
                    k in old(pendingInvitations) && (k in keys || !Involves(old(pendingInvitations)[k], sid))
        invariant forall k :: k in pendingInvitations ==> pendingInvitations[k] == old(pendingInvitations)[k]
        decreases keys
      {
        var inviteId :| inviteId in keys;
        var invite := pendingInvitations[inviteId];
        if invite.from == sid || invite.to == sid {
          pendingInvitations := pendingInvitations - {inviteId};
        }
        keys := keys - {inviteId};
      }
      assert pendingInvitations == Prune(old(pendingInvitations), sid);
    }
  }
}

=== FILE: types.dfy ===
/**
 The coordinator's data: player records, invitations, the four tables the
 server keeps, and the events it sends out.
 */
module Types {
  import opened Wrappers

  /** Socket ids, group ids and invitation ids are strings. */
  type PlayerId = string
  type GroupId = string
  type InviteId = string

  /** A player record. `name` is None when the client never sent one;
      `variant` is the sprite index chosen at join time. Coordinates are
      integers here, where the server holds JavaScript numbers. */
  datatype Player = Player(x: int, y: int, name: Option<string>, variant: int)

  /** A pending chat invitation with both display names taken at creation. */
  datatype Invitation = Invitation(from: PlayerId, to: PlayerId, fromName: string, toName: string)

  /** The four module-level tables of the server. `order` is the key order of
      `players` as a JavaScript object enumerates it: insertion order, where
      overwriting a key keeps its place and deleting it removes it. */
  datatype Tables = Tables(
    players: map<PlayerId, Player>,
    order: seq<PlayerId>,
    chatGroups: map<GroupId, seq<PlayerId>>,
    playerGroups: map<PlayerId, GroupId>,
    pending: map<InviteId, Invitation>)

  /** The tables when the server starts. */
  const Empty: Tables := Tables(map[], [], map[], map[], map[])

  /** Who an outbound event goes to: one socket, or every connection. */
  datatype Recipient = Socket(id: PlayerId) | Everyone

  /** The outbound events and their payloads. */
  datatype Event =
    | UpdatePlayers(snapshot: map<PlayerId, Player>)
    | ChatMessage(from: PlayerId, text: string)
    | ChatInvitation(inviteId: InviteId, from: PlayerId, fromName: string)
    | InvitationSent(inviteId: InviteId, to: PlayerId, toName: string)
    | InvitationRejected(inviteId: InviteId, rejectedBy: PlayerId, byName: string)
    | PlayerJoinedGroup(groupId: GroupId, playerId: PlayerId, playerName: string, members: seq<PlayerId>)
    | GroupCreated(groupId: GroupId, members: seq<PlayerId>, memberNames: seq<string>)
    | LeftGroup
    | ChatError(reason: string)

  datatype Send = Send(to: Recipient, event: Event)

  const NotNearby: string := "Player is not nearby"
  const InvalidInvitation: string := "Invalid invitation"

  /** The label used for a player without a name: "Player " and the first
      four characters of the id (fewer when the id is shorter). */
  function DefaultName(id: PlayerId): (r: string)
    ensures "Player " <= r && r[7..] <= id
    ensures |r| == 7 + if |id| < 4 then |id| else 4
  {
    "Player " + id[..if |id| < 4 then |id| else 4]
  }

  /** `players[id]?.name || "Player " + id.substring(0, 4)`: an empty or
      missing name falls back to the default label, so the result is never empty. */
  function DisplayName(players: map<PlayerId, Player>, id: PlayerId): (r: string)
    ensures r != ""
    ensures id in players && players[id].name.Some? && players[id].name.value != "" ==> r == players[id].name.value
    ensures r == DefaultName(id) || (id in players && players[id].name == Some(r))
  {
    if id in players && players[id].name.Some? && players[id].name.value != "" then
      players[id].name.value
    else
      DefaultName(id)
  }

  /** The display names of a member list, in order. */
  function Names(players: map<PlayerId, Player>, ids: seq<PlayerId>): seq<string>
  {
    seq(|ids|, i requires 0 <= i < |ids| => DisplayName(players, ids[i]))
  }

  /** No id occurs twice. */
  predicate Distinct(s: seq<PlayerId>)
  {
    forall i, j :: 0 <= i < j < |s| ==> s[i] != s[j]
  }

  /** `s.filter(id => id !== p)`. */
  function Without(s: seq<PlayerId>, p: PlayerId): (r: seq<PlayerId>)
    ensures |r| <= |s|
  {
    if s == [] then [] else (if s[0] == p then [] else [s[0]]) + Without(s[1..], p)
  }

  lemma {:induction false} WithoutMembers(s: seq<PlayerId>, p: PlayerId, q: PlayerId)
    ensures q in Without(s, p) <==> q in s && q != p
  {
    if s != [] {
      WithoutMembers(s[1..], p, q);
      assert s == [s[0]] + s[1..];
    }
  }

  /** Filtering out an id that is not there changes nothing. */
  lemma {:induction false} WithoutAbsent(s: seq<PlayerId>, p: PlayerId)
    requires p !in s
    ensures Without(s, p) == s
  {
    if s != [] {
      WithoutAbsent(s[1..], p);
      assert s == [s[0]] + s[1..];
    }
  }

  /** In a list without duplicates, filtering out the id at position k
      removes exactly that position and keeps the others in order. */
  lemma {:induction false} WithoutAt(s: seq<PlayerId>, k: nat)
    requires Distinct(s) && k < |s|
    ensures Without(s, s[k]) == s[..k] + s[k + 1..]
  {
    var p := s[k];
    assert Distinct(s[1..]) by {
      forall i, j | 0 <= i < j < |s[1..]| ensures s[1..][i] != s[1..][j] {
        assert s[1..][i] == s[i + 1] && s[1..][j] == s[j + 1];
      }
    }
    if k == 0 {
      assert p !in s[1..] by {
        forall i | 0 <= i < |s[1..]| ensures s[1..][i] != p {
          assert s[1..][i] == s[i + 1];
        }
      }
      WithoutAbsent(s[1..], p);
    } else {
      assert s[1..][k - 1] == p;
      WithoutAt(s[1..], k - 1);
      assert s[..k] == [s[0]] + s[1..][..k - 1];
      assert s[k + 1..] == s[1..][k..];
    }
  }

  lemma {:induction false} WithoutDistinct(s: seq<PlayerId>, p: PlayerId)
    requires Distinct(s)
    ensures Distinct(Without(s, p))
  {
    if s != [] {
      WithoutDistinct(s[1..], p);
      WithoutMembers(s[1..], p, s[0]);
      assert s[0] !in s[1..] by {
        forall k | 0 <= k < |s[1..]| ensures s[1..][k] != s[0] {
          assert s[1..][k] == s[k + 1];
        }
      }
      var rest := Without(s[1..], p);
      if s[0] != p {
        forall i, j | 0 <= i < j < |[s[0]] + rest| ensures ([s[0]] + rest)[i] != ([s[0]] + rest)[j] {
          if i == 0 {
            assert ([s[0]] + rest)[j] == rest[j - 1];
          } else {
            assert ([s[0]] + rest)[i] == rest[i - 1] && ([s[0]] + rest)[j] == rest[j - 1];
          }
        }
      }
    }
  }

  /** `ids.forEach(id => io.to(id).emit(ev))`: one send per id, in order. */
  function Fanout(ids: seq<PlayerId>, ev: Event): (r: seq<Send>)
    ensures |r| == |ids|
  {
    if ids == [] then [] else Fanout(ids[..|ids| - 1], ev) + [Send(Socket(ids[|ids| - 1]), ev)]
  }

  /** The k-th send of a fan-out carries the event to the k-th id. */
  lemma {:induction false} FanoutAt(ids: seq<PlayerId>, ev: Event, k: nat)
    requires k < |ids|
    ensures Fanout(ids, ev)[k] == Send(Socket(ids[k]), ev)
  {
    if k < |ids| - 1 {
      FanoutAt(ids[..|ids| - 1], ev, k);
    }
  }

  /** A fan-out reaches exactly the listed ids, and nothing else. */
  lemma FanoutReaches(ids: seq<PlayerId>, ev: Event, s: Send)
    ensures s in Fanout(ids, ev) <==> s.event == ev && s.to.Socket? && s.to.id in ids
  {
    if s in Fanout(ids, ev) {
      var k :| 0 <= k < |ids| && Fanout(ids, ev)[k] == s;
      FanoutAt(ids, ev, k);
    }
    if s.event == ev && s.to.Socket? && s.to.id in ids {
      var k :| 0 <= k < |ids| && ids[k] == s.to.id;
      FanoutAt(ids, ev, k);
    }
  }
}

=== FILE: wrappers.dfy ===
/** An optional value: a JavaScript field that may be `undefined`. */
module Wrappers {

  datatype Option<+T> = None | Some(value: T)
}
